=== FILE: README.md ===
# A Dafny model of the MiniPRO scooter controller's core

The repository drives a Segway MiniPRO scooter over Bluetooth Low Energy.
This project models the parts of it that decide bytes and state, and proves
properties about them:

- **The MiniPRO packet serialiser** (`Packet`, `MiniProPackets`, `MiniPro`).
  `Packet::get_bytes` lays out a frame: a 0x55AA header, a length byte, the
  type, operation and parameter bytes, the payload, and a complemented
  16-bit checksum. The `Drive` and `EnterRemoteControlMode` commands fill the
  payload with big-endian fields. `MiniPro` sends each frame to its
  characteristic handle with its write mode. The host's byte order is a
  parameter (`Common.Endianness`), because the checksum goes out in host
  memory order while the header goes through `htons`. The four command codes
  (`Command`, `ControlDriveBase`, `SetDrive`, `EnableRemoteControl`): their
  values are not part of this model, so they are parameters
  (`MiniProPackets.Codes`).
- **The GATT command layer**, in its three revisions:
  - the C command-line tool `lib/bluez/btgattclient.c` (`Tokenizer`,
    `GattCalls`, `GattTool`);
  - the C++ `BluetoothLEDevice`, which keeps the tool's string commands
    (`LeDevice`);
  - the typed C++ `BluetoothLEClient` (`LeClient`).

  Modelled are the `parse_args` tokeniser, the argument validation, the
  reliable-write session guard over `reliable_session_id`, the sign-key
  decoder, the signing counter and the ready flag. Every BlueZ library call is
  modelled as the `GattCalls.Call` it issues, or none. `strtol` and `sscanf`
  are oracle parameters. The id that `bt_gatt_client_prepare_write` returns is
  a parameter too.
- **The ATT error-code labels** of `src/bluetooth/utils.cpp` and the tool's own
  copy (`AttErrors`). They cover codes 0x01–0x11 of the ATT Error Response
  (Bluetooth Core Specification, Vol 3, Part F, section 3.4.1.1) and the
  common profile codes 0xFD–0xFF (Core Specification Supplement, Part B,
  section 1.2).
- **The main loop's registration table** of `lib/bluez/mainloop.c`
  (`Mainloop`). It has 128 slots and supports add, modify, remove, the
  shutdown drain, the stop requests and the timer conversion. What
  `epoll_ctl`, `malloc` and `timerfd_settime` return are parameters.
- **The joystick state** of `src/util/joystick.cpp` (`Joystick`). Each event
  read from the device changes the axis and button state.

Integer widths are explicit. `uint8_t`, `uint16_t` and `uint32_t` narrowing
are `Common.Wrap8`, `Wrap16` and `Wrap32`. `int16_t` to `uint16_t` is
`Common.ToUint16`. `unsigned int` is 32 bits. The handle count of `bt_gatt_client_read_multiple` is taken
to be a `uint8_t`, the width `include/bluetooth/le_client.hpp:57` gives
`read_multiple`; BlueZ's own header is not part of this model.

## Model

| member | source | states |
|---|---|---|
| `Common.Int16RoundTrip` | src/minipro/minipro.cpp:90-92 | A signed 16-bit drive input reinterpreted as `uint16_t` and read back as signed is unchanged |
| `Common.HtonsMemoryIsBigEndian` | src/minipro/packet.cpp:43-46 | On either host byte order, the memory image of `htons(v)` is the big-endian encoding of `v` |
| `Common.MemoryBytes16RoundTrip` | src/minipro/packet.cpp:54-56 | The two checksum bytes copied from host memory determine the checksum on either byte order |
| `Packet.NewPacket` | src/minipro/packet.cpp:22-25 | A constructed packet keeps its type, operation, parameter and payload; its length is 0 until `get_bytes` sets it |
| `Packet.Sum16IsTotalMod` | src/minipro/packet.cpp:34-37 | The byte-by-byte `uint16_t` sum equals the true sum reduced modulo 2^16 |
| `Packet.LengthByte` | src/minipro/packet.cpp:32 | The length byte is the payload size plus 2 modulo 256, and exactly that sum when it fits |
| `Packet.GetBytes` | src/minipro/packet.cpp:27-59 | The frame is payload + 8 bytes: 0x55 0xAA, the length byte, type, operation, parameter, the payload verbatim, then the checksum in host memory order. The packet's length field is updated |
| `Packet.CoveredSum` | src/minipro/packet.cpp:34-37 | The running `uint16_t` sum equals the total of length, type, operation, parameter and payload modulo 2^16 |
| `Packet.Checksum` | src/minipro/packet.cpp:34-38 | The checksum plus the 16-bit sum of the covered bytes is 0xFFFF |
| `Packet.ChecksumComplementsSum` | src/minipro/packet.cpp:34-56 | On the wire: the `uint16_t` sum of the frame bytes from the length byte to the end of the payload, plus the checksum read back from the last two bytes in host order, is always 0xFFFF |
| `Packet.GetBytesIdempotent` | src/minipro/packet.cpp:27-59 | Calling `get_bytes` again on the updated packet yields the same frame and the same packet |
| `Packet.Decode` | src/minipro/packet.cpp:41-57 | A frame is accepted only with the header, a length byte matching its size, and a checksum that matches |
| `Packet.DecodeGetBytes` | src/minipro/packet.cpp:41-57 | Round trip: decoding the frame of any packet whose length byte does not wrap gives back that packet |
| `Packet.GetBytesDecode` | src/minipro/packet.cpp:27-59 | Round trip: re-encoding a decoded frame reproduces the frame byte for byte |
| `Packet.MemoryBytesInjective` | src/minipro/packet.cpp:54-56 | Two checksum byte pairs that read as the same value are the same bytes |
| `Packet.LengthByteWraps` | src/minipro/packet.cpp:32-47 | A 254-byte payload makes the length byte wrap to 0, and the frame no longer decodes |
| `MiniProPackets.NewDrive` | src/minipro/drive.cpp:26-35 | A fresh `Drive` has type Command, operation ControlDriveBase, parameter SetDrive and four zero payload bytes |
| `MiniProPackets.SetThrottle` | src/minipro/drive.cpp:37-45 | Payload bytes 0–1 become the throttle in network order; the length, the other payload bytes and every header field are unchanged |
| `MiniProPackets.SetSteeringAsWritten` | src/minipro/drive.cpp:47-55 | As written, steering goes to payload bytes 3 and 4, which needs a payload of more than 4 bytes |
| `MiniProPackets.SteeringAsWrittenOutOfBounds` | src/minipro/drive.cpp:32-54 | The payload a `Drive` has is 4 bytes before and after `setThrottle`, so the as-written steering write is out of bounds. Byte 2 is never written |
| `MiniProPackets.SetSteering` | src/minipro/drive.cpp:47-55 | Corrected: steering goes to payload bytes 2–3 in network order; nothing else changes |
| `MiniProPackets.Drive` | src/minipro/drive.cpp:26-55 | Corrected: `Drive(throttle, steering)`, built with the corrected steering setter, has the drive header fields and a four-byte payload |
| `MiniProPackets.DriveRoundTrip` | src/minipro/drive.cpp:37-55 | Corrected: with the corrected steering setter, reading the payload back as two big-endian values gives the throttle and the steering |
| `MiniProPackets.EnterRemoteControlMode` | src/minipro/enter_remote_control_mode.cpp:26-37 | The packet has type Command, operation ControlDriveBase, parameter EnableRemoteControl and payload exactly [0x00, 0x01] |
| `MiniProPackets.EnterRemoteControlChecksum` | src/minipro/enter_remote_control_mode.cpp:32-36 | Its checksum is 0xFFFF minus (4 + 1 + the three header codes) |
| `MiniProPackets.EnterRemoteControlFrame` | src/minipro/enter_remote_control_mode.cpp:26-37 | Serialised, its length byte is 4 and its frame is 10 bytes |
| `MiniPro.SendPacket` | src/minipro/minipro.cpp:96-101 | Sends exactly the packet's frame to the transmit handle, as an unsigned write without response |
| `MiniPro.WriteConfigValue` | src/minipro/minipro.cpp:103-108 | Sends the value's two big-endian bytes to the configuration handle as a write with response |
| `MiniPro.EnableNotifications` | src/minipro/minipro.cpp:63-67 | Throws when the client is not ready; otherwise writes the bytes 00 01 to the configuration handle |
| `MiniPro.DisableNotifications` | src/minipro/minipro.cpp:69-73 | Throws when the client is not ready; otherwise writes the bytes 00 00 to the configuration handle |
| `MiniPro.EnterRemoteControl` | src/minipro/minipro.cpp:75-80 | Throws when not ready; otherwise sends one unsigned write without response to the transmit handle whose bytes decode to the enter-remote-control packet |
| `MiniPro.EnterRemoteControlConstant` | src/minipro/minipro.cpp:75-80 | Every call sends the same ten bytes, whatever the client's state |
| `MiniPro.ExitRemoteControl` | src/minipro/minipro.cpp:82-87 | Throws when the client is not ready; otherwise sends exactly one frame of the exit packet to the transmit handle |
| `MiniPro.DriveCmd` | src/minipro/minipro.cpp:89-94 | Sends one unsigned write without response to the transmit handle, or throws when the client is not ready |
| `MiniPro.DriveDelivered` | src/minipro/minipro.cpp:89-94 | Corrected: with the corrected steering setter, what `drive` sends decodes to a drive packet whose fields, read as signed 16-bit values, are the inputs |
| `MiniPro.Telemetry` | src/minipro/minipro.cpp:35-61 | Speed, battery, voltage and temperature all report 0 |
| `Tokenizer.Fields` | lib/bluez/btgattclient.c:554 | `strsep` on space and tab yields at least one field, and no field contains a separator |
| `Tokenizer.FieldsRoundTrip` | lib/bluez/btgattclient.c:554 | The fields rejoined with the separators that were cut give back the input string |
| `Tokenizer.Tokens` | lib/bluez/btgattclient.c:554-560 | The arguments are the non-empty fields, each free of separators |
| `Tokenizer.ParseArgsResult` | lib/bluez/btgattclient.c:550-566 | Succeeds iff the non-empty tokens fit under `expected_argc`. On success argv holds all tokens in order. On failure it stops at the first token that takes the count past `expected_argc`. `argc` grows by the tokens stored |
| `Tokenizer.ParseArgs` | lib/bluez/btgattclient.c:550-566 | The loop computes exactly the reference result above |
| `Tokenizer.CallerSafeIff` | lib/bluez/btgattclient.c:550-566 | No command string makes `parse_args` write past an array of `capacity` slots iff `expected_argc - argc < capacity` (the NULL needs a slot) |
| `AttErrors.EcodeToString` | src/bluetooth/utils.cpp:21-48 | The default label is returned exactly for the codes the table does not list |
| `AttErrors.ToolEcodeToString` | lib/bluez/btgattclient.c:109-155 | The tool's table gives, for every byte, the label `utils::ecode_to_string` gives |
| `AttErrors.EcodeOrder` | src/bluetooth/utils.cpp:24-44 | Codes 0x01–0x11 map in order from "Invalid Handle" to "Insufficient Resources", and 0xFD–0xFF to the three profile labels |
| `AttErrors.EcodeUnknownIffUnlisted` | src/bluetooth/utils.cpp:24-47 | The default label is returned iff the code is not one of the 20 listed |
| `AttErrors.EcodeLabelsDistinct` | src/bluetooth/utils.cpp:25-44 | Distinct listed codes have distinct labels |
| `AttErrors.TablesAgree` | lib/bluez/btgattclient.c:109-155 | The tool's table and `utils::ecode_to_string` agree on every byte |
| `GattCalls.HandleArg` | lib/bluez/btgattclient.c:775-779 | A handle is accepted iff `strtol` reads the whole token and the value modulo 2^16 is nonzero; the handle is that value modulo 2^16, equal to it when it fits |
| `GattCalls.HandleArgs` | lib/bluez/btgattclient.c:692-699 | A handle list is accepted iff every entry is, and then holds each entry's value, all nonzero |
| `GattCalls.OffsetArg` | lib/bluez/btgattclient.c:1224-1229 | An offset is accepted iff `strtol` reads the whole token and, where the command checks it, there is no `ERANGE`; the offset is the value modulo 2^16, equal to it when it fits |
| `GattCalls.ValueByte` | lib/bluez/btgattclient.c:946-962 | One value token is accepted iff it has two characters where that rule applies, `strtol` in the rule's base reads all of it, and there is no `ERANGE`. The byte is the value modulo 256, equal to it when it fits |
| `GattCalls.ValueBytes` | lib/bluez/btgattclient.c:1251-1264 | A value is accepted iff every token is a valid byte under the command's rule, and then holds those bytes in order |
| `GattCalls.ByteRulesDiffer` | src/bluetooth/bluetooth_le_device.cpp:619-631 | "001" is a valid base-16 byte for `write_value` but is refused by the two-character rule |
| `GattCalls.LocalCounter` | lib/bluez/btgattclient.c:1609-1616 | Returns the counter and increments it modulo 2^32 |
| `GattCalls.CounterValuesCount` | src/bluetooth/bluetooth_le_device.cpp:963-968 | The i-th call after starting at `cnt` returns `cnt + i` modulo 2^32 |
| `GattCalls.CounterFromZero` | src/bluetooth/bluetooth_le_client.cpp:485-490 | From its initial 0, the shared counter hands out 0, 1, 2, … |
| `GattTool.ReadValueCmd` | lib/bluez/btgattclient.c:757-784 | Issues a read iff the client is ready and there is exactly one argument, a valid nonzero handle |
| `GattTool.ReadLongValueCmd` | lib/bluez/btgattclient.c:799-835 | Issues a long read iff there are exactly a valid handle and a numeric offset, and the read carries the parsed handle and offset; the offset is not range-checked |
| `GattTool.ReadMultipleWith` | lib/bluez/btgattclient.c:668-707 | Issues a multiple read iff there are 2 to `expected_argc` arguments, all valid nonzero handles. The read carries exactly the parsed handles, and `argc` as the `uint8_t` count, i.e. modulo 256 |
| `GattTool.ReadMultipleCmdAsWritten` | lib/bluez/btgattclient.c:668-707 | As written, with `sizeof(argv)` (512 times the pointer size) as the count limit: a read iff 2 to that many valid handles, carrying the parsed handles and `argc` modulo 256 |
| `GattTool.ReadMultipleOverruns` | lib/bluez/btgattclient.c:672-681 | With that limit, 512 words make `parse_args` write slot 512 of `argv[512]`, for every pointer size |
| `GattTool.ReadMultipleCmd` | lib/bluez/btgattclient.c:668-707 | Corrected: a read iff 2 to 511 valid handles, carrying the parsed handles and `argc` modulo 256 as the count |
| `GattTool.ReadMultipleCountWraps` | lib/bluez/btgattclient.c:701-702 | 256 valid handles pass the corrected count check, yet reach `bt_gatt_client_read_multiple` with a count of 0 |
| `GattTool.ReadMultipleSafe` | lib/bluez/btgattclient.c:672-681 | With 511 as the count, no command string overruns `argv` |
| `GattTool.WriteValueOperands` | lib/bluez/btgattclient.c:918-987 | After option parsing, a write is issued iff the client is ready and the operands are a valid nonzero handle followed by at most `UINT16_MAX` bytes, each valid in base 16. `-w` picks a write without response carrying `-s`; otherwise the write has a response and no signing flag |
| `GattTool.WriteValueCmd` | lib/bluez/btgattclient.c:877-987 | More than 513 tokens, options included, are refused ("Too many arguments"). Otherwise a write is issued iff the client is ready, `getopt_long` accepts the options, and the operands are a valid handle and base-16 bytes. `-w` picks a write without response carrying `-s` |
| `GattTool.WriteLongValueOperands` | lib/bluez/btgattclient.c:1070-1133 | After option parsing, a long write is issued iff the client is ready, the handle and the `ERANGE`-checked offset are valid, there are at most `UINT16_MAX` value tokens, and every one is a valid two-character byte |
| `GattTool.WriteLongValueCmd` | lib/bluez/btgattclient.c:1032-1133 | More than 513 tokens are refused. Otherwise a long write with the `-r` flag is issued iff `getopt_long` accepts the options and the operands are a valid handle, an offset without `ERANGE` and two-character bytes |
| `GattTool.WritePrepareOperands` | lib/bluez/btgattclient.c:1204-1283 | After option parsing, a prepare whose id is not the active one is refused and leaves the id unchanged. An accepted prepare stores the returned id, so a failed one (0) ends the session |
| `GattTool.WritePrepareCmd` | lib/bluez/btgattclient.c:1157-1283 | More than 514 tokens are refused with the session unchanged. Otherwise a prepare is issued iff the `-s` id is the active session and the operands are a valid handle, offset and two-character bytes; the returned id becomes active |
| `GattTool.WriteLengthChecksUnreachable` | lib/bluez/btgattclient.c:934-938 | The `length > UINT16_MAX` tests never refuse: `parse_args` has already capped the tokens at 514 |
| `GattTool.TooManyWriteArguments` | lib/bluez/btgattclient.c:895-899 | A write command of 514 tokens issues nothing, whatever the tokens say |
| `GattTool.WriteExecuteCmd` | lib/bluez/btgattclient.c:1299-1353 | A mismatched id is refused and changes nothing. Otherwise it commits iff the second argument is nonzero and cancels otherwise, and either way resets the id to 0 |
| `GattTool.SessionArg` | lib/bluez/btgattclient.c:1324-1328 | A session id is refused iff it is not numeric; otherwise it is the value modulo 2^32, and equal to it when it fits an `unsigned int` |
| `GattTool.RegisterNotifyCmd` | lib/bluez/btgattclient.c:1412-1447 | Registers iff there is exactly one argument, a valid nonzero handle |
| `GattTool.UnregisterNotifyCmd` | lib/bluez/btgattclient.c:1461-1492 | Unregisters iff there is exactly one argument, a numeric nonzero id, and the call carries that parsed id |
| `GattTool.LevelArg` | lib/bluez/btgattclient.c:1533-1537 | A level is refused iff it is not numeric; otherwise it is the `long` narrowed to a 32-bit `int`, unchanged when it fits |
| `GattTool.SetSecurityCmd` | lib/bluez/btgattclient.c:1509-1548 | Sets the level iff the one argument is a number from 1 to 3, and the call carries that parsed level; anything else is refused before any library call |
| `GattTool.SetSecurityOverruns` | lib/bluez/btgattclient.c:1511-1522 | `argvbuf[1]` is too small: even the valid command "2" makes `parse_args` write slot 1 |
| `GattTool.SetSecuritySafe` | lib/bluez/btgattclient.c:1511-1522 | Corrected: two slots hold the argument and the NULL for any input |
| `GattTool.OtherCallersSafe` | lib/bluez/btgattclient.c:577-1632 | Every other `parse_args` call site has room for its arguments and the NULL |
| `GattTool.GetSecurityCmd` | lib/bluez/btgattclient.c:1551-1565 | Queries the level iff the client is ready, whatever the arguments |
| `GattTool.MtuArg` | lib/bluez/btgattclient.c:1933-1948 | `--mtu` is accepted iff it is from 1 to 65535; 0 and below and too-large values are refused separately |
| `GattTool.SecurityLevelArg` | lib/bluez/btgattclient.c:1921-1931 | Exactly "low", "medium" and "high" are accepted, each as a valid level |
| `GattTool.SecurityLevelsOrdered` | lib/bluez/btgattclient.c:1921-1927 | The three names map to strictly increasing levels |
| `GattTool.ConvertSignKey` | lib/bluez/btgattclient.c:1574-1591 | Fails unless the text has 32 characters; on success byte i is what `%2hhx` reads at character 2i |
| `GattTool.SignKeyRoundTrip` | lib/bluez/btgattclient.c:1574-1591 | Round trip: the hex text of any 16-byte key converts back to that key |
| `GattTool.SetSignKeyCmd` | lib/bluez/btgattclient.c:1624-1646 | Installs a key iff there are two arguments, `-c` or `--sign-key`, and a convertible key. No readiness check is made |
| `LeDevice.ReadyCb` | src/bluetooth/bluetooth_le_device.cpp:310-327 | Success sets `ready_`; failure leaves it as it was |
| `LeDevice.ReadyAfter` | src/bluetooth/bluetooth_le_device.cpp:310-327 | Once `ready_` is set, no series of discovery callbacks clears it |
| `LeDevice.ReadyAfterIff` | src/bluetooth/bluetooth_le_device.cpp:310-327 | After any series of callbacks, `ready_` is set iff it was set before or some callback succeeded: nothing clears it |
| `LeDevice.Construct` | src/bluetooth/bluetooth_le_device.cpp:72-77 | The constructor's wait succeeds iff some discovery callback within it succeeded |
| `LeDevice.ConstructKeepsSuccess` | src/bluetooth/bluetooth_le_device.cpp:72-77 | With only failed discoveries, or none, the constructor throws; a success, once seen, is not undone by later callbacks |
| `LeDevice.ReadValue` | src/bluetooth/bluetooth_le_device.cpp:467-477 | Reads the handle given iff the client is ready |
| `LeDevice.ReadLongValue` | src/bluetooth/bluetooth_le_device.cpp:480-490 | Reads the handle and offset given iff the client is ready |
| `LeDevice.RegisterNotify` | src/bluetooth/bluetooth_le_device.cpp:892-908 | Registers the handle given iff the client is ready |
| `LeDevice.RegisterNotifyAcceptsZero` | src/bluetooth/bluetooth_le_device.cpp:892-908 | Unlike the tool's command, the typed call passes handle 0 to the library |
| `LeDevice.UnregisterNotify` | src/bluetooth/bluetooth_le_device.cpp:911-923 | Unregisters the id given iff the client is ready |
| `LeDevice.SetSecurity` | src/bluetooth/bluetooth_le_device.cpp:926-943 | Calls the library iff the client is ready and the level is 1 to 3 |
| `LeDevice.GetSecurity` | src/bluetooth/bluetooth_le_device.cpp:946-960 | Queries the level iff the client is ready |
| `LeDevice.SetSignKey` | src/bluetooth/bluetooth_le_device.cpp:971-974 | Installs the given 16-byte key |
| `LeDevice.OnlySignKeyIgnoresReady` | src/bluetooth/bluetooth_le_device.cpp:467-974 | When the client is not ready, every typed operation but `set_sign_key` issues nothing |
| `LeDevice.ReadMultiple` | src/bluetooth/bluetooth_le_device.cpp:394-438 | Corrected: same rules as the tool's command, with the element count 511: a read iff 2 to 511 nonzero handles, carrying the parsed handles and `argc` modulo 256 as the count |
| `LeDevice.ReadMultipleAsWritten` | src/bluetooth/bluetooth_le_device.cpp:394-438 | As written, with `sizeof(argv)` as the count: a read iff 2 to `512 * pointerSize` valid handles, carrying the parsed handles and `argc` modulo 256; at that count some command overruns `argv[512]` |
| `LeDevice.WriteValue` | src/bluetooth/bluetooth_le_device.cpp:1061-1154 | More than 513 tokens are refused. Otherwise a write is issued iff the client is ready, `getopt_long` accepts the options, and the operands are a valid handle and base-16 bytes. The write is without response iff `-w`, carrying `-s`, with exactly that handle and those bytes |
| `LeDevice.WriteLongValue` | src/bluetooth/bluetooth_le_device.cpp:551-663 | More than 513 tokens are refused. Otherwise a long write is issued iff the operands are a valid handle, an offset without `ERANGE` and value tokens of exactly two characters; it carries `-r`, the parsed handle and offset, and the parsed bytes |
| `LeDevice.WritePrepare` | src/bluetooth/bluetooth_le_device.cpp:665-797 | More than 514 tokens are refused. A prepare is issued iff the `-s` id is the active one and the operands are valid, and it carries that id with the parsed handle, offset and bytes; a refused one leaves the id unchanged, and an accepted one makes the returned id active |
| `LeDevice.WriteExecute` | src/bluetooth/bluetooth_le_device.cpp:799-857 | Acts iff the client is ready, there are 2 to 514 tokens, the first is the active id and the second is numeric. It commits iff the second is nonzero and cancels otherwise, and resets the id to 0 |
| `LeDevice.ValueTokenRules` | src/bluetooth/bluetooth_le_device.cpp:619-631 | The token "001" is a valid byte for `write_value` but makes `write_prepare` refuse |
| `LeClient.ReadMultiple` | src/bluetooth/bluetooth_le_client.cpp:265-275 | Throws when not ready, and otherwise reads the handles given with their number as the count, at most 255 since the count is a `uint8_t` |
| `LeClient.ReadValue` | src/bluetooth/bluetooth_le_client.cpp:299-309 | Throws when not ready, and otherwise reads the handle |
| `LeClient.ReadLongValue` | src/bluetooth/bluetooth_le_client.cpp:311-321 | Throws when not ready, and otherwise reads the handle from the offset |
| `LeClient.WriteLongValue` | src/bluetooth/bluetooth_le_client.cpp:343-355 | Throws when not ready, and otherwise issues the long write as given |
| `LeClient.WritePrepare` | src/bluetooth/bluetooth_le_client.cpp:357-377 | Throws when not ready. A mismatched id is refused unchanged. Otherwise the returned id, 0 on failure, becomes the active one |
| `LeClient.WriteExecute` | src/bluetooth/bluetooth_le_client.cpp:379-394 | Throws when not ready. Otherwise commits or cancels the given id with no check against the active one, and resets the active id to 0 |
| `LeClient.RegisterNotify` | src/bluetooth/bluetooth_le_client.cpp:430-444 | Throws when not ready, and otherwise registers the handle |
| `LeClient.UnregisterNotify` | src/bluetooth/bluetooth_le_client.cpp:446-456 | Throws when not ready, and otherwise unregisters the id |
| `LeClient.SetSecurity` | src/bluetooth/bluetooth_le_client.cpp:458-473 | Throws when not ready, and otherwise calls the library iff the level is 1 to 3 |
| `LeClient.GetSecurity` | src/bluetooth/bluetooth_le_client.cpp:475-482 | Throws when not ready, and otherwise queries the level |
| `LeClient.SetSignKey` | src/bluetooth/bluetooth_le_client.cpp:493-496 | Installs the key without the readiness guard |
| `LeClient.SignKeyBypassesGuard` | src/bluetooth/bluetooth_le_client.cpp:475-496 | A client that is not ready throws on the other operations but still installs a key |
| `LeClient.WriteValue` | src/bluetooth/bluetooth_le_client.cpp:579-595 | Throws when not ready. `without_response` selects a write without response carrying the signed flag; otherwise a response write is issued |
| `LeClient.ResponseWriteIgnoresSigned` | src/bluetooth/bluetooth_le_client.cpp:585-593 | The signed flag makes no difference to a response write |
| `LeClient.ReadyCb` | src/bluetooth/bluetooth_le_client.cpp:221-237 | Only success sets `ready_`; the session id is untouched |
| `LeClient.OnlyZeroOpensSession` | src/bluetooth/bluetooth_le_client.cpp:363-366 | Since the id starts at 0, a fresh client refuses every prepare with a nonzero id |
| `LeClient.StalePrepareRefused` | src/bluetooth/bluetooth_le_client.cpp:385-393 | After any execute, a prepare quoting the old nonzero id is refused |
| `LeClient.ExecuteGuardDiffers` | src/bluetooth/bluetooth_le_client.cpp:379-394 | This client executes an id that is not the active one, which the tool never does |
| `Mainloop.Init` | lib/bluez/mainloop.c:101-111 | All 128 slots are empty and the terminate flag is clear; the exit status is kept |
| `Mainloop.Quit` | lib/bluez/mainloop.c:116-119 | Sets the terminate flag only |
| `Mainloop.ExitSuccess` | lib/bluez/mainloop.c:125-129 | Sets the terminate flag and the success status; the table is untouched |
| `Mainloop.ExitFailure` | lib/bluez/mainloop.c:135-139 | Sets the terminate flag and the failure status; the table is untouched |
| `Mainloop.StopRequestsIdempotent` | lib/bluez/mainloop.c:116-139 | Repeating a stop request changes nothing, and the later `exit_*` decides the status |
| `Mainloop.AddFd` | lib/bluez/mainloop.c:252-286 | An out-of-range fd or null callback gives -EINVAL and a failed allocation -ENOMEM. A failed `epoll_ctl` returns its error. All of these leave the table unchanged. Success fills exactly slot `fd` |
| `Mainloop.AddFdOverwrites` | lib/bluez/mainloop.c:277-283 | An occupied slot is replaced without its old destroy hook running |
| `Mainloop.ModifyFd` | lib/bluez/mainloop.c:296-320 | An out-of-range fd gives -EINVAL and an empty slot -ENXIO. A failed `epoll_ctl` changes nothing. Success changes only that entry's events |
| `Mainloop.RemoveFd` | lib/bluez/mainloop.c:322-344 | An out-of-range fd gives -EINVAL and an empty slot -ENXIO. Otherwise the slot is emptied and its destroy hook runs once, even when `epoll_ctl` fails, whose result is returned |
| `Mainloop.AddThenRemove` | lib/bluez/mainloop.c:252-344 | Adding then removing a descriptor restores the table and runs exactly the hook registered |
| `Mainloop.DestroysExactlyOnce` | lib/bluez/mainloop.c:220-233 | The drain's destroy calls name each slot at most once, in increasing order, and name a slot iff it held an entry with a hook |
| `Mainloop.Drain` | lib/bluez/mainloop.c:220-236 | After the drain all 128 slots are empty and the hooks ran as listed above |
| `Mainloop.DrainRunsEachHookOnce` | lib/bluez/mainloop.c:220-233 | Each present entry's destroy hook runs exactly once and no other hook runs |
| `Mainloop.ApplyAllStatus` | lib/bluez/mainloop.c:125-139 | After a series of stop requests the last `exit_*` decides the status; with none, the status is kept |
| `Mainloop.ApplyAllNoExit` | lib/bluez/mainloop.c:125-139 | Requests that are all `quit` leave the exit status unchanged |
| `Mainloop.ApplyAllLastExit` | lib/bluez/mainloop.c:125-139 | The status after the requests is the one the last `exit_success` or `exit_failure` sets, whatever came before it |
| `Mainloop.Run` | lib/bluez/mainloop.c:194-238 | Defined only when the loop can stop, since with the flag clear and no stop request the source never returns. The status is reset to success on entry. Stop requests apply only if the loop had not already been told to stop. The loop ends told to stop, the table ends empty, and the status returned is the one stored |
| `Mainloop.RunTwice` | lib/bluez/mainloop.c:194-196 | A second run without `init` returns success without dispatching, because the terminate flag stays set |
| `Mainloop.TimeoutSetAsWritten` | lib/bluez/mainloop.c:374-386 | As written: no interval, whole seconds, and a nanosecond part that stays below one millisecond whatever `msec` is |
| `Mainloop.TimeoutSetAsWrittenScale` | lib/bluez/mainloop.c:374-386 | As written, the timer expires after the whole seconds plus the leftover milliseconds read as microseconds; 1 ms becomes 1 µs |
| `Mainloop.TimeoutSet` | lib/bluez/mainloop.c:374-386 | Corrected: no interval, a normalised `tv_nsec`, and an expiry of exactly `msec` milliseconds |
| `Mainloop.TimeoutSetExact` | lib/bluez/mainloop.c:374-386 | The correction changes only `tv_nsec`, by exactly the missing factor 1000; the seconds are those the source computes, and the expiry grows by `(msec % 1000) * 999000` ns |
| `Joystick.Construct` | src/util/joystick.cpp:33-54 | Throws iff opening or either count query failed; otherwise every axis is (0, 0) and no button has a callback |
| `Joystick.GetAxisState` | src/util/joystick.cpp:77-85 | Throws iff the axis is not below the axis count; otherwise returns the stored (x, y) |
| `Joystick.SetButtonCallback` | src/util/joystick.cpp:87-95 | Throws iff the button is not below the button count; otherwise replaces only that button's callback |
| `Joystick.HandleEvent` | src/util/joystick.cpp:105-129 | A button event runs the button's callback, if any, with `value != 0` and changes no state. An axis event sets x (even number) or y (odd) of axis `number / 2` only. Other types change nothing |
| `Joystick.AxisEventObserved` | src/util/joystick.cpp:113-124 | After an axis event, `get_axis_state` shows the new coordinate on that axis and the old state on every other |
| `Joystick.AxisPairCommutes` | src/util/joystick.cpp:113-124 | The two event numbers of an axis commute and together set both coordinates |
| `Joystick.InitEventsIgnored` | src/util/joystick.cpp:105-128 | Start-up events flagged `JS_EVENT_INIT` match no case and change nothing |
| `Joystick.RegisteredCallbackRuns` | src/util/joystick.cpp:87-111 | A press of a button runs the callback just registered for it, with the pressed flag |
| `Joystick.Replay` | src/util/joystick.cpp:97-134 | Handling a series of events keeps the counts and the callbacks |
| `Joystick.ReplayUntouched` | src/util/joystick.cpp:97-134 | An axis no event addresses keeps its state, and with no callbacks no event runs one |
| `Joystick.InputThread` | src/util/joystick.cpp:97-134 | The input loop computes exactly the reference replay of the events it reads |

## Left out

- Console output, usage texts, debug callbacks and the colour constants: they decide no state.
- `getopt_long` in `write-value`, `write-long-value` and `write-prepare`: a parameter from the `parse_args` tokens to the options and operands, assumed (`GattCalls.OperandsFromTokens`) never to return more operands than it was given tokens.
- `MiniProPackets.Drive`, `MiniProPackets.DriveRoundTrip`, `MiniPro.DriveCmd`, `MiniPro.DriveDelivered`: these use the corrected steering setter. As written, `setSteering` writes past the payload, so no round trip holds; `MiniProPackets.SteeringAsWrittenOutOfBounds` states that half.
- `LeDevice.ReadMultiple`: uses the corrected element count 511; the as-written `sizeof(argv)` count is `LeDevice.ReadMultipleAsWritten`.
- `strtol`, `sscanf` and `atoi`: parameters. The sign-key round trip assumes only what `%2hhx` guarantees for two hex digits. `errno` is not cleared before the source's `strtol` calls, so an old `ERANGE` can reject a good token; the model takes the range flag as given.
- `malloc` failures inside the GATT commands: they only print and return, the same as a refused argument.
- The BlueZ library (`bt_att_*`, `bt_gatt_client_*`, `gatt_db_*`), socket setup (`l2cap_le_att_connect`, `l2_cap_socket.cpp`) and `client_create`/`client_destroy`: the library is not part of this model, so a command's effect is the call it issues. Library success or failure only changes what is printed, except for the prepare id, which is a parameter.
- `cmd_services`, the service printers, `service_changed_cb` and `process_input`: they print or read the terminal.
- Threads, the mutex and condition variable, and the five-second wait: `LeDevice.Construct` takes the callbacks that arrive within the wait as a list.
- `LeClient`'s constructor: it returns silently on setup failures; only its initial `ready_` and session id are modelled.
- The event wait in `mainloop_run`, `signal_callback`, `timeout_callback`, `mainloop_set_signal` and the signal handling in `run`: these are I/O. Callbacks that add or remove descriptors during the loop are also not modelled; `Mainloop.Run` drains the table it was given.
- `mainloop_add_timeout`, `modify_timeout` and `remove_timeout`: thin wrappers over `timeout_set` and the table operations, which are modelled.
- `Mainloop.Run`: a run with the flag clear and no stop request is excluded by precondition, because the source blocks in `epoll_wait` forever and returns nothing to model.
- `Mainloop.TimeoutSetAsWrittenScale`: the `timerfd_settime` result is not modelled, only the `itimerspec` built.
- `Joystick`: the device open, the `ioctl` queries, `fcntl`, the input thread's 60 Hz pacing and the destructor are not modelled. Event numbers past the axis or button tables are excluded by precondition, because the source indexes them unchecked.
- `src/util/loop_rate.cpp`, `src/minipro/main.cpp` and the test programs: timing and device loops.
- `src/minipro/enter_remote_control.cpp` is not part of this model: it fills `data_` and `length_` of the older `packet::Packet` class, whose `get_buffer` and `calculate_checksum` are declared at `include/minipro/packet.hpp:33-36` and have no definition in this model.
- `ExitRemoteControlMode`: `include/minipro/exit_remote_control_mode.hpp:30` declares the constructor, and this model has no definition of it, so `MiniPro.ExitRemoteControl` takes its packet as a parameter.
- `LeDevice.SetSecurity` and `LeClient.SetSecurity` take the `int` level as given; the `long`-to-`int` narrowing happens only in the tool, as `GattCalls.Int32Of`.

## Findings

| source | as written | input that shows it | evidently intended | confidence | as-written member | corrected member |
|---|---|---|---|---|---|---|
| src/minipro/drive.cpp:53-54 | `setSteering` writes `payload_[3]` and `payload_[4]` of a 4-byte payload | any `Drive`, e.g. `Drive(0, 0)`: index 4 is past the end, and byte 2 is never written | steering in payload bytes 2 and 3, next to the throttle in 0 and 1 | high; not executed | `MiniProPackets.SteeringAsWrittenOutOfBounds` | `MiniProPackets.SetSteering` |
| lib/bluez/btgattclient.c:1511-1522 | `cmd_set_security` declares `char *argvbuf[1]` but calls `parse_args` with `expected_argc` 1, which also stores the NULL | the valid command `set-security 2` writes `argv[1]` | two slots, like every other one-argument command | high; not executed | `GattTool.SetSecurityOverruns` | `GattTool.SetSecuritySafe` |
| lib/bluez/btgattclient.c:672-681 | `cmd_read_multiple` passes `sizeof(argv)`, a byte count, as the element count of `char *argv[512]`; `bluetooth_le_device.cpp:397-405` does the same | 512 words of input write `argv[512]` on any pointer size | an element count of 511, leaving room for the NULL | high; not executed | `GattTool.ReadMultipleOverruns`, `LeDevice.ReadMultipleAsWritten` | `GattTool.ReadMultipleSafe`, `LeDevice.ReadMultiple` |
| lib/bluez/mainloop.c:383 | `tv_nsec = (msec - sec * 1000) * 1000` | `msec = 1` arms the timer for 1000 ns, i.e. 1 µs instead of 1 ms | multiply the leftover milliseconds by 1,000,000 | high; not executed | `Mainloop.TimeoutSetAsWrittenScale` | `Mainloop.TimeoutSet`, `Mainloop.TimeoutSetExact` |

=== FILE: atterrors.dfy ===
/**
 * Labels for ATT error codes, as printed by the read and write callbacks.
 *
 * Codes 0x01-0x11 are the Error Response codes of the Bluetooth Core
 * Specification, Vol 3, Part F, section 3.4.1.1; codes 0xFD-0xFF are the
 * common profile and service error codes of the Core Specification
 * Supplement, Part B, section 1.2.  The labels are the program's own strings,
 * spelling included.  The same table appears twice in the program, in
 * `utils::ecode_to_string` and in the command-line tool, listed in different
 * orders; both are modelled and shown to agree.
 */
module AttErrors {
  import opened Common

  const InvalidHandle: uint8 := 0x01
  const ReadNotPermitted: uint8 := 0x02
  const WriteNotPermitted: uint8 := 0x03
  const InvalidPdu: uint8 := 0x04
  const InsufficientAuthentication: uint8 := 0x05
  const RequestNotSupported: uint8 := 0x06
  const InvalidOffset: uint8 := 0x07
  const InsufficientAuthorization: uint8 := 0x08
  const PrepareQueueFull: uint8 := 0x09
  const AttributeNotFound: uint8 := 0x0A
  const AttributeNotLong: uint8 := 0x0B
  const InsufficientEncryptionKeySize: uint8 := 0x0C
  const InvalidAttributeValueLength: uint8 := 0x0D
  const UnlikelyError: uint8 := 0x0E
  const InsufficientEncryption: uint8 := 0x0F
  const UnsupportedGroupType: uint8 := 0x10
  const InsufficientResources: uint8 := 0x11
  const CccImproperlyConfigured: uint8 := 0xFD
  const ProcedureAlreadyInProgress: uint8 := 0xFE
  const OutOfRange: uint8 := 0xFF

  const UnknownLabel: string := "Unknown error type"

  /** `utils::ecode_to_string`, cases in the order that file lists them. */
  function EcodeToString(ecode: uint8): (r: string)
    ensures r == UnknownLabel <==> !Listed(ecode)
  {
    if ecode == AttributeNotFound then "Attribute Not Found"
    else if ecode == AttributeNotLong then "Attribute Not Long"
    else if ecode == InsufficientAuthentication then "Authentication Required"
    else if ecode == InsufficientAuthorization then "Authorization Required"
    else if ecode == InsufficientEncryptionKeySize then "Insuficient Encryption Key Size"
    else if ecode == InsufficientEncryption then "Insufficient Encryption"
    else if ecode == InsufficientResources then "Insufficient Resources"
    else if ecode == InvalidAttributeValueLength then "Invalid Attribute value len"
    else if ecode == InvalidHandle then "Invalid Handle"
    else if ecode == InvalidOffset then "Invalid Offset"
    else if ecode == InvalidPdu then "Invalid PDU"
    else if ecode == PrepareQueueFull then "Prepare Write Queue Full"
    else if ecode == ReadNotPermitted then "Read Not Permitted"
    else if ecode == RequestNotSupported then "Request Not Supported"
    else if ecode == UnlikelyError then "Unlikely Error"
    else if ecode == UnsupportedGroupType then "Group type Not Supported"
    else if ecode == WriteNotPermitted then "Write Not Permitted"
    else if ecode == ProcedureAlreadyInProgress then "Procedure Already in Progress"
    else if ecode == CccImproperlyConfigured then "CCC Improperly Configured"
    else if ecode == OutOfRange then "Out of Range"
    else UnknownLabel
  }

  /** The command-line tool's `ecode_to_string`, cases in numeric order. */
  function ToolEcodeToString(ecode: uint8): (r: string)
    ensures r == EcodeToString(ecode)
  {
    if ecode == InvalidHandle then "Invalid Handle"
    else if ecode == ReadNotPermitted then "Read Not Permitted"
    else if ecode == WriteNotPermitted then "Write Not Permitted"
    else if ecode == InvalidPdu then "Invalid PDU"
    else if ecode == InsufficientAuthentication then "Authentication Required"
    else if ecode == RequestNotSupported then "Request Not Supported"
    else if ecode == InvalidOffset then "Invalid Offset"
    else if ecode == InsufficientAuthorization then "Authorization Required"
    else if ecode == PrepareQueueFull then "Prepare Write Queue Full"
    else if ecode == AttributeNotFound then "Attribute Not Found"
    else if ecode == AttributeNotLong then "Attribute Not Long"
    else if ecode == InsufficientEncryptionKeySize then "Insuficient Encryption Key Size"
    else if ecode == InvalidAttributeValueLength then "Invalid Attribute value len"
    else if ecode == UnlikelyError then "Unlikely Error"
    else if ecode == InsufficientEncryption then "Insufficient Encryption"
    else if ecode == UnsupportedGroupType then "Group type Not Supported"
    else if ecode == InsufficientResources then "Insufficient Resources"
    else if ecode == CccImproperlyConfigured then "CCC Improperly Configured"
    else if ecode == ProcedureAlreadyInProgress then "Procedure Already in Progress"
    else if ecode == OutOfRange then "Out of Range"
    else UnknownLabel
  }

  /** The ATT Error Response labels, for codes 0x01, 0x02, ... 0x11 in turn. */
  const AttLabels: seq<string> := [
    "Invalid Handle", "Read Not Permitted", "Write Not Permitted", "Invalid PDU",
    "Authentication Required", "Request Not Supported", "Invalid Offset",
    "Authorization Required", "Prepare Write Queue Full", "Attribute Not Found",
    "Attribute Not Long", "Insuficient Encryption Key Size", "Invalid Attribute value len",
    "Unlikely Error", "Insufficient Encryption", "Group type Not Supported",
    "Insufficient Resources"
  ]

  /** The common profile error labels, for codes 0xFD, 0xFE, 0xFF in turn. */
  const ProfileLabels: seq<string> := ["CCC Improperly Configured", "Procedure Already in Progress", "Out of Range"]

  /** The codes the table names. */
  predicate Listed(ecode: uint8)
  {
    0x01 <= ecode <= 0x11 || 0xFD <= ecode
  }

  /** Codes 0x01-0x11 map, in order, to the ATT labels; 0xFD-0xFF to the profile labels. */
  lemma EcodeOrder()
    ensures forall i :: 0 <= i < |AttLabels| ==> EcodeToString(i + 1) == AttLabels[i]
    ensures forall i :: 0 <= i < |ProfileLabels| ==> EcodeToString(0xFD + i) == ProfileLabels[i]
  {
  }

  /** The fallback label is returned exactly for the codes the table does not name. */
  lemma EcodeUnknownIffUnlisted(ecode: uint8)
    ensures EcodeToString(ecode) == UnknownLabel <==> !Listed(ecode)
  {
  }

  /** No two listed codes share a label, so a printed label identifies its code. */
  lemma EcodeLabelsDistinct(a: uint8, b: uint8)
    requires Listed(a) && Listed(b) && a != b
    ensures EcodeToString(a) != EcodeToString(b)
  {
    if a <= 0x08 {
      DistinctLow(a, b);
    } else if a <= 0x11 {
      DistinctHigh(a, b);
    } else {
      DistinctProfile(a, b);
    }
  }

  /** `EcodeLabelsDistinct` for the ATT codes 0x01-0x08. */
  lemma DistinctLow(a: uint8, b: uint8)
    requires 0x01 <= a <= 0x08 && Listed(b) && a != b
    ensures EcodeToString(a) != EcodeToString(b)
  {
  }

  /** `EcodeLabelsDistinct` for the ATT codes 0x09-0x11. */
  lemma DistinctHigh(a: uint8, b: uint8)
    requires 0x09 <= a <= 0x11 && Listed(b) && a != b
    ensures EcodeToString(a) != EcodeToString(b)
  {
  }

  /** `EcodeLabelsDistinct` for the profile codes 0xFD-0xFF. */
  lemma DistinctProfile(a: uint8, b: uint8)
    requires 0xFD <= a && Listed(b) && a != b
    ensures EcodeToString(a) != EcodeToString(b)
  {
  }

  /** The library's table and the command-line tool's table agree on every byte. */
  lemma TablesAgree(ecode: uint8)
    ensures EcodeToString(ecode) == ToolEcodeToString(ecode)
  {
  }
}

=== FILE: common.dfy ===
/**
 * Fixed-width integers, byte order and the Option wrapper shared by every
 * other module.  C/C++ integer types are unbounded here; each subset type
 * below names the range of the source type, and every wrap-around is
 * written out explicitly where the source relies on it.
 */
module Common {

  type uint8 = x: int | 0 <= x < 0x100
  type uint16 = x: int | 0 <= x < 0x1_0000
  type uint32 = x: int | 0 <= x < 0x1_0000_0000
  type int16 = x: int | -0x8000 <= x < 0x8000

  datatype Option<+T> = None | Some(value: T)

  /** Conversion to a 16-bit unsigned value (C's implicit `uint16_t` narrowing). */
  function Wrap16(x: int): (r: uint16)
    ensures (r - x) % 0x1_0000 == 0
  {
    x % 0x1_0000
  }

  /** Conversion to an 8-bit unsigned value (C's implicit `uint8_t` narrowing). */
  function Wrap8(x: int): (r: uint8)
    ensures (r - x) % 0x100 == 0
  {
    x % 0x100
  }

  /** Conversion to a 32-bit unsigned value (C's `uint32_t` arithmetic). */
  function Wrap32(x: int): (r: uint32)
    ensures (r - x) % 0x1_0000_0000 == 0
  {
    x % 0x1_0000_0000
  }

  /** Two's-complement reinterpretation of an `int16_t` as a `uint16_t`. */
  function ToUint16(x: int16): (r: uint16)
    ensures x >= 0 ==> r == x
    ensures x < 0 ==> r == x + 0x1_0000
  {
    Wrap16(x)
  }

  /** Inverse of `ToUint16`: reads a `uint16_t` back as an `int16_t`. */
  function ToInt16(x: uint16): int16
  {
    if x < 0x8000 then x else x - 0x1_0000
  }

  lemma Int16RoundTrip(x: int16)
    ensures ToInt16(ToUint16(x)) == x
    ensures ToUint16(ToInt16(ToUint16(x))) == ToUint16(x)
  {
  }

  /** Byte order of the host the program runs on. */
  datatype Endianness = LittleEndian | BigEndian

  /** The two bytes a `uint16_t` occupies in host memory, lowest address first. */
  function MemoryBytes16(host: Endianness, v: uint16): (r: seq<uint8>)
    ensures |r| == 2
    ensures (r[0] as int) * 0x100 + r[1] == v || (r[1] as int) * 0x100 + r[0] == v
  {
    match host
    case LittleEndian => [v % 0x100, v / 0x100]
    case BigEndian => [v / 0x100, v % 0x100]
  }

  /** `htons`: the value whose host-memory image is the big-endian image of `v`. */
  function Htons(host: Endianness, v: uint16): uint16
  {
    match host
    case LittleEndian => (v % 0x100) * 0x100 + v / 0x100
    case BigEndian => v
  }

  /** Big-endian (network order) image of a 16-bit value. */
  function BigEndian16(v: uint16): (r: seq<uint8>)
    ensures |r| == 2
  {
    [v / 0x100, v % 0x100]
  }

  /** Reads a 16-bit value back from its big-endian image. */
  function FromBigEndian16(b: seq<uint8>): uint16
    requires |b| == 2
  {
    (b[0] as int) * 0x100 + b[1]
  }

  /** Whatever the host, the memory image of `htons(v)` is the network-order image of `v`. */
  lemma HtonsMemoryIsBigEndian(host: Endianness, v: uint16)
    ensures MemoryBytes16(host, Htons(host, v)) == BigEndian16(v)
  {
  }

  lemma BigEndian16RoundTrip(v: uint16)
    ensures FromBigEndian16(BigEndian16(v)) == v
  {
  }

  lemma BigEndian16Injective(a: uint16, b: uint16)
    requires BigEndian16(a) == BigEndian16(b)
    ensures a == b
  {
    BigEndian16RoundTrip(a);
    BigEndian16RoundTrip(b);
  }

  /** Reads a 16-bit value back from its host-memory image. */
  function FromMemoryBytes16(host: Endianness, b: seq<uint8>): uint16
    requires |b| == 2
  {
    match host
    case LittleEndian => (b[1] as int) * 0x100 + b[0]
    case BigEndian => (b[0] as int) * 0x100 + b[1]
  }

  lemma MemoryBytes16RoundTrip(host: Endianness, v: uint16)
    ensures FromMemoryBytes16(host, MemoryBytes16(host, v)) == v
  {
  }
}

=== FILE: drive.dfy ===
/**
 * The MiniPRO command packets built on `Packet`: `Drive` (four payload bytes,
 * throttle then steering, each in network order) and
 * `EnterRemoteControlMode` (a two-byte payload holding 1 in network order).
 *
 * The numeric values of `Command`, `ControlDriveBase`, `SetDrive` and
 * `EnableRemoteControl` live in a header that is not part of this model, so
 * they are carried as the parameter `Codes`.
 */
module MiniProPackets {
  import opened Common
  import opened Packet

  /** The command constants the packet constructors use. */
  datatype Codes = Codes(command: uint8, controlDriveBase: uint8, setDrive: uint8, enableRemoteControl: uint8)

  /** The `Drive` payload: two bytes of throttle, two of steering. */
  const DrivePayloadSize: nat := 4

  /** `Drive::Drive()`: the header fields of a drive command and four zero bytes. */
  function NewDrive(c: Codes): (p: Packet)
    ensures p.kind == c.command && p.operation == c.controlDriveBase && p.parameter == c.setDrive
    ensures |p.payload| == DrivePayloadSize
    ensures forall i :: 0 <= i < |p.payload| ==> p.payload[i] == 0
  {
    NewPacket(c.command, c.controlDriveBase, c.setDrive, [0, 0, 0, 0])
  }

  /**
   * `Drive::setThrottle`: copies the memory image of `htons(throttle)` into
   * payload bytes 0 and 1.
   */
  function SetThrottle(p: Packet, throttle: uint16, host: Endianness): (q: Packet)
    requires |p.payload| >= 2
    ensures q == p.(payload := q.payload)
    ensures |q.payload| == |p.payload|
    ensures q.payload[..2] == BigEndian16(throttle)
    ensures q.payload[2..] == p.payload[2..]
  {
    HtonsMemoryIsBigEndian(host, throttle);
    var b := MemoryBytes16(host, Htons(host, throttle));
    p.(payload := p.payload[0 := b[0]][1 := b[1]])
  }

  /**
   * `Drive::setSteering` as the source writes it: payload bytes 3 and 4.
   * Index 4 exists only in a payload of at least five bytes, which no `Drive`
   * has (see `SteeringAsWrittenOutOfBounds`).
   */
  function SetSteeringAsWritten(p: Packet, steering: uint16, host: Endianness): (q: Packet)
    requires |p.payload| > 4
    ensures q == p.(payload := q.payload)
    ensures |q.payload| == |p.payload|
    ensures q.payload[3..5] == BigEndian16(steering)
    ensures q.payload[..3] == p.payload[..3] && q.payload[5..] == p.payload[5..]
  {
    HtonsMemoryIsBigEndian(host, steering);
    var b := MemoryBytes16(host, Htons(host, steering));
    p.(payload := p.payload[3 := b[0]][4 := b[1]])
  }

  /**
   * The source's `setSteering` cannot be applied to a drive packet: every
   * `Drive` payload, fresh or after `setThrottle`, has four bytes, so the
   * write to index 4 is out of bounds, and neither setter touches byte 2.
   */
  lemma SteeringAsWrittenOutOfBounds(c: Codes, throttle: uint16, host: Endianness)
    ensures !(|NewDrive(c).payload| > 4)
    ensures !(|SetThrottle(NewDrive(c), throttle, host).payload| > 4)
    ensures SetThrottle(NewDrive(c), throttle, host).payload[2] == NewDrive(c).payload[2] == 0
  {
  }

  /** `setSteering` with the indices the four-byte layout calls for: payload bytes 2 and 3. */
  function SetSteering(p: Packet, steering: uint16, host: Endianness): (q: Packet)
    requires |p.payload| >= DrivePayloadSize
    ensures q == p.(payload := q.payload)
    ensures |q.payload| == |p.payload|
    ensures q.payload[2..4] == BigEndian16(steering)
    ensures q.payload[..2] == p.payload[..2] && q.payload[4..] == p.payload[4..]
  {
    HtonsMemoryIsBigEndian(host, steering);
    var b := MemoryBytes16(host, Htons(host, steering));
    p.(payload := p.payload[2 := b[0]][3 := b[1]])
  }

  /** `Drive(throttle, steering)`: the default constructor followed by both setters. */
  function Drive(c: Codes, throttle: uint16, steering: uint16, host: Endianness): (p: Packet)
    ensures p.kind == c.command && p.operation == c.controlDriveBase && p.parameter == c.setDrive
    ensures |p.payload| == DrivePayloadSize
  {
    SetSteering(SetThrottle(NewDrive(c), throttle, host), steering, host)
  }

  /** How a receiver reads a drive payload: throttle then steering, both big-endian. */
  function DecodeDrive(payload: seq<uint8>): (uint16, uint16)
    requires |payload| == DrivePayloadSize
  {
    (FromBigEndian16(payload[..2]), FromBigEndian16(payload[2..]))
  }

  /** The drive payload carries exactly the throttle and steering it was built from. */
  lemma DriveRoundTrip(c: Codes, throttle: uint16, steering: uint16, host: Endianness)
    ensures DecodeDrive(Drive(c, throttle, steering, host).payload) == (throttle, steering)
  {
    var t := SetThrottle(NewDrive(c), throttle, host);
    var p := Drive(c, throttle, steering, host);
    assert p.payload[..2] == t.payload[..2] == BigEndian16(throttle);
    assert p.payload[2..] == p.payload[2..4];
    BigEndian16RoundTrip(throttle);
    BigEndian16RoundTrip(steering);
  }

  /**
   * `EnterRemoteControlMode::EnterRemoteControlMode()`: a command with the
   * memory image of `htons(0x0001)` as its payload.
   */
  function EnterRemoteControlMode(c: Codes, host: Endianness): (p: Packet)
    ensures p.kind == c.command && p.operation == c.controlDriveBase && p.parameter == c.enableRemoteControl
    ensures p.payload == [0x00, 0x01]
  {
    HtonsMemoryIsBigEndian(host, 0x0001);
    NewPacket(c.command, c.controlDriveBase, c.enableRemoteControl, MemoryBytes16(host, Htons(host, 0x0001)))
  }

  /** The checksum of an enter-remote-control command, in closed form. */
  lemma EnterRemoteControlChecksum(c: Codes, host: Endianness)
    ensures Checksum(4, EnterRemoteControlMode(c, host)) == 0xFFFF - (5 + c.command + c.controlDriveBase + c.enableRemoteControl)
  {
    var p := EnterRemoteControlMode(c, host);
    var sum := 4 + c.command + c.controlDriveBase + c.enableRemoteControl;
    Sum16IsTotalMod(sum, p.payload);
    assert p.payload[1..] == [1];
    assert Total(p.payload[1..]) == 1 by { assert p.payload[1..][1..] == []; }
  }

  /**
   * The complete frame of an enter-remote-control command: ten bytes, length
   * byte 4, and a checksum that depends only on the three command codes.
   */
  lemma EnterRemoteControlFrame(c: Codes, host: Endianness)
    ensures var f := GetBytes(EnterRemoteControlMode(c, host), host);
            && |f.bytes| == 10
            && f.bytes[2] == 4
            && f.bytes == [0x55, 0xAA, 4, c.command, c.controlDriveBase, c.enableRemoteControl, 0x00, 0x01]
                           + MemoryBytes16(host, 0xFFFF - (5 + c.command + c.controlDriveBase + c.enableRemoteControl))
  {
    var p := EnterRemoteControlMode(c, host);
    EnterRemoteControlChecksum(c, host);
    HtonsMemoryIsBigEndian(host, Header);
    assert LengthByte(p.payload) == 4;
  }
}

=== FILE: gattcalls.dfy ===
/**
 * What the GATT command layer hands to the BlueZ client library, and the
 * argument rules its three revisions share.
 *
 * The library (`bt_gatt_client_*`, `bt_att_*`) is not part of this model:
 * a command's effect is the library call it issues, or none.  Whether that
 * call then succeeds only changes what is printed, except for
 * `bt_gatt_client_prepare_write`, whose returned id the callers store; that
 * id is a parameter wherever it matters.
 *
 * `strtol` is likewise a parameter: `Strtol(token, base)` is `None` when the
 * token is not entirely a number in that base (the source's `endptr` tests)
 * and otherwise the converted value with the `ERANGE` flag.
 */
module GattCalls {
  import opened Common

  /**
   * The library calls the command layer issues.  `ReadMultiple` carries the
   * handle array and the `uint8_t` count `bt_gatt_client_read_multiple`
   * receives, which is how many of the handles the library reads.
   */
  datatype Call =
    | ReadValue(handle: uint16)
    | ReadLongValue(handle: uint16, offset: uint16)
    | ReadMultiple(handles: seq<uint16>, count: uint8)
    | WriteValue(handle: uint16, value: seq<uint8>)
    | WriteWithoutResponse(handle: uint16, signedWrite: bool, value: seq<uint8>)
    | WriteLongValue(reliable: bool, handle: uint16, offset: uint16, value: seq<uint8>)
    | PrepareWrite(id: uint32, handle: uint16, offset: uint16, value: seq<uint8>)
    | WriteExecute(id: uint32)
    | Cancel(id: uint32)
    | RegisterNotify(handle: uint16)
    | UnregisterNotify(id: uint32)
    | SetSecurity(level: int)
    | GetSecurity
    | SetLocalKey(key: seq<uint8>)

  /** A `strtol` result: the value and whether `errno` was set to `ERANGE`. */
  datatype Conversion = Conversion(value: int, rangeError: bool)

  type Strtol = (string, nat) -> Option<Conversion>

  /** `UINT16_MAX`, the longest value a write command accepts. */
  const MaxValueLength: nat := 0xFFFF

  /**
   * What `getopt_long` leaves a write command: the flags it set, the `-s`
   * session id of `write-prepare` (`atoi` of its argument, stored in an
   * `unsigned int`; 0 when absent), and the operands from `argv + optind`
   * on.  `None` is the `default:` branch: an option the command does not
   * know, or `-s` without its argument.
   */
  datatype Options = Options(withoutResponse: bool, signedWrite: bool, reliable: bool, sessionId: uint32, operands: seq<string>)

  /** `getopt_long` over the tokens `parse_args` stored, as a parameter. */
  type Getopt = seq<string> -> Option<Options>

  /** `getopt_long` removes option tokens and may reorder operands, but never adds any. */
  ghost predicate OperandsFromTokens(getopt: Getopt)
  {
    forall toks :: getopt(toks).Some? ==> |getopt(toks).value.operands| <= |toks|
  }

  /**
   * A handle argument: `strtol(tok, &endptr, 0)` stored in a `uint16_t`, then
   * refused when that stored value is 0.
   */
  function HandleArg(tok: string, strtol: Strtol): (r: Option<uint16>)
    ensures r.Some? ==> r.value != 0
    ensures strtol(tok, 0).None? ==> r.None?
    ensures r.Some? <==> strtol(tok, 0).Some? && strtol(tok, 0).value.value % 0x1_0000 != 0
    ensures r.Some? ==> (r.value - strtol(tok, 0).value.value) % 0x1_0000 == 0
                        && (0 <= strtol(tok, 0).value.value < 0x1_0000 ==> r.value == strtol(tok, 0).value.value)
  {
    match strtol(tok, 0)
    case None => None
    case Some(c) => if Wrap16(c.value) == 0 then None else Some(Wrap16(c.value))
  }

  /** Several handle arguments, all of which must be valid. */
  function HandleArgs(toks: seq<string>, strtol: Strtol): (r: Option<seq<uint16>>)
    ensures r.Some? <==> forall i :: 0 <= i < |toks| ==> HandleArg(toks[i], strtol).Some?
    ensures r.Some? ==> |r.value| == |toks|
    ensures r.Some? ==> forall i :: 0 <= i < |toks| ==> r.value[i] == HandleArg(toks[i], strtol).value != 0
  {
    if |toks| == 0 then Some([])
    else
      match (HandleArg(toks[0], strtol), HandleArgs(toks[1..], strtol))
      case (Some(h), Some(hs)) => Some([h] + hs)
      case (None, _) => None
      case (_, None) =>
        assert exists i :: 0 <= i < |toks| && !HandleArg(toks[i], strtol).Some? by {
          var i :| 0 <= i < |toks[1..]| && !HandleArg(toks[1..][i], strtol).Some?;
          assert toks[1..][i] == toks[i + 1];
        }
        None
  }

  /** An offset argument, stored in a `uint16_t`; `checkRange` adds the `ERANGE` test some commands make. */
  function OffsetArg(tok: string, checkRange: bool, strtol: Strtol): (r: Option<uint16>)
    ensures strtol(tok, 0).None? ==> r.None?
    ensures checkRange && strtol(tok, 0).Some? && strtol(tok, 0).value.rangeError ==> r.None?
    ensures r.Some? <==> strtol(tok, 0).Some? && !(checkRange && strtol(tok, 0).value.rangeError)
    ensures r.Some? ==> (r.value - strtol(tok, 0).value.value) % 0x1_0000 == 0
                        && (0 <= strtol(tok, 0).value.value < 0x1_0000 ==> r.value == strtol(tok, 0).value.value)
  {
    match strtol(tok, 0)
    case None => None
    case Some(c) => if checkRange && c.rangeError then None else Some(Wrap16(c.value))
  }

  /**
   * How value bytes are read: `write-long-value` and `write-prepare` demand
   * exactly two characters and accept any base `strtol` recognises;
   * `write-value` reads any length in base 16.
   */
  datatype ByteRule = TwoCharacters | Base16

  /**
   * One value token: refused for the wrong length (two-character rule), when
   * `strtol` stops early or reads nothing, or on `ERANGE`; otherwise the
   * `long` stored into a `uint8_t`, i.e. taken modulo 256.
   */
  function ValueByte(tok: string, rule: ByteRule, strtol: Strtol): (r: Option<uint8>)
    ensures rule == TwoCharacters && |tok| != 2 ==> r.None?
    ensures var c := strtol(tok, if rule == Base16 then 16 else 0);
            r.Some? <==> (rule == Base16 || |tok| == 2) && c.Some? && !c.value.rangeError
    ensures var c := strtol(tok, if rule == Base16 then 16 else 0);
            r.Some? ==> (r.value - c.value.value) % 0x100 == 0 && (0 <= c.value.value < 0x100 ==> r.value == c.value.value)
  {
    var base := if rule == Base16 then 16 else 0;
    if rule == TwoCharacters && |tok| != 2 then None
    else
      match strtol(tok, base)
      case None => None
      case Some(c) => if c.rangeError then None else Some(Wrap8(c.value))
  }

  /** All value bytes of a write, each read by `rule`; one bad token rejects the lot. */
  function ValueBytes(toks: seq<string>, rule: ByteRule, strtol: Strtol): (r: Option<seq<uint8>>)
    ensures r.Some? <==> forall i :: 0 <= i < |toks| ==> ValueByte(toks[i], rule, strtol).Some?
    ensures r.Some? ==> |r.value| == |toks|
    ensures r.Some? ==> forall i :: 0 <= i < |toks| ==> r.value[i] == ValueByte(toks[i], rule, strtol).value
  {
    if |toks| == 0 then Some([])
    else
      match (ValueByte(toks[0], rule, strtol), ValueBytes(toks[1..], rule, strtol))
      case (Some(b), Some(bs)) => Some([b] + bs)
      case (None, _) => None
      case (_, None) =>
        assert exists i :: 0 <= i < |toks| && !ValueByte(toks[i], rule, strtol).Some? by {
          var i :| 0 <= i < |toks[1..]| && !ValueByte(toks[1..][i], rule, strtol).Some?;
          assert toks[1..][i] == toks[i + 1];
        }
        None
  }

  /**
   * The two rules differ exactly on length: a three-character token that
   * `strtol` reads in base 16 passes `write-value` but not `write-prepare`.
   */
  lemma ByteRulesDiffer(strtol: Strtol)
    requires strtol("001", 16) == Some(Conversion(1, false))
    ensures ValueByte("001", Base16, strtol) == Some(1)
    ensures ValueByte("001", TwoCharacters, strtol) == None
  {
  }

  /** `(int)` narrowing of a `long` on the platforms the program targets: two's complement, 32 bits. */
  function Int32Of(x: int): (r: int)
    ensures -0x8000_0000 <= r < 0x8000_0000
    ensures -0x8000_0000 <= x < 0x8000_0000 ==> r == x
  {
    var w := Wrap32(x);
    if w < 0x8000_0000 then w else w - 0x1_0000_0000
  }

  /** Security levels the commands accept: `BT_SECURITY_LOW` through `BT_SECURITY_HIGH`. */
  predicate ValidLevel(level: int)
  {
    1 <= level <= 3
  }

  /** The length of a signing key, `uint8_t key[16]`. */
  const SignKeySize: nat := 16

  /**
   * `local_counter`, the signing counter every revision installs: it returns
   * the current value of a static `uint32_t` and post-increments it.  The
   * result is the pair (value returned, counter afterwards).
   */
  function LocalCounter(cnt: uint32): (r: (uint32, uint32))
    ensures r.0 == cnt
    ensures cnt < 0xFFFF_FFFF ==> r.1 == cnt + 1
    ensures cnt == 0xFFFF_FFFF ==> r.1 == 0
  {
    (cnt, Wrap32(cnt + 1))
  }

  /** The values `n` successive calls return, starting from counter `cnt`. */
  function CounterValues(cnt: uint32, n: nat): (r: seq<uint32>)
    ensures |r| == n
    decreases n
  {
    if n == 0 then [] else [LocalCounter(cnt).0] + CounterValues(LocalCounter(cnt).1, n - 1)
  }

  /** From any start, call `i` returns the start plus `i`, modulo 2^32. */
  lemma {:induction false} CounterValuesCount(cnt: uint32, n: nat)
    ensures forall i :: 0 <= i < n ==> CounterValues(cnt, n)[i] == (cnt + i) % 0x1_0000_0000
    decreases n
  {
    if n > 0 {
      var next := LocalCounter(cnt).1;
      CounterValuesCount(next, n - 1);
      forall i | 0 < i < n
        ensures CounterValues(cnt, n)[i] == (cnt + i) % 0x1_0000_0000
      {
        assert CounterValues(cnt, n)[i] == CounterValues(next, n - 1)[i - 1];
        assert (next + (i - 1)) % 0x1_0000_0000 == (cnt + i) % 0x1_0000_0000;
      }
    }
  }

  /** Starting from its initial value 0, the counter hands out 0, 1, 2, ... */
  lemma CounterFromZero(n: nat)
    requires n <= 0x1_0000_0000
    ensures forall i :: 0 <= i < n ==> CounterValues(0, n)[i] == i
  {
    CounterValuesCount(0, n);
  }
}

=== FILE: gatttool.dfy ===
/**
 * The interactive commands of the command-line GATT client
 * (`lib/bluez/btgattclient.c`), as far as they decide whether and how the
 * library is called.
 *
 * Commands that take no options receive the raw command string and split it
 * with `parse_args`.  For `write-value`, `write-long-value` and
 * `write-prepare`, `getopt_long` is not modelled: those functions receive the
 * option values and the positional arguments that remain after it.
 *
 * Every command first checks `bt_gatt_client_is_ready`; a client that is not
 * ready prints a message and does nothing, which is the `ready == false`
 * case here.
 */
module GattTool {
  import opened Common
  import opened Tokenizer
  import opened GattCalls

  /** `argv` capacity and `expected_argc` of every `parse_args` call site. */
  const ReadValueSlots: nat := 2
  const ReadLongValueSlots: nat := 3
  const ReadMultipleSlots: nat := 512
  const WriteSlots: nat := 515          // argvbuf[516], passed as argv + 1
  const ExecuteSlots: nat := 516
  const NotifySlots: nat := 2
  const SetSecuritySlotsAsWritten: nat := 1
  const SetSecuritySlots: nat := 2
  const SignKeySlots: nat := 3

  /**
   * `sizeof(argv)` for `char *argv[512]`: a byte count, which the source
   * passes where an element count is expected.
   */
  function ReadMultipleExpectedAsWritten(pointerSize: nat): nat
  {
    ReadMultipleSlots * pointerSize
  }

  /** The element count `cmd_read_multiple` should pass: one slot stays free for the NULL. */
  const ReadMultipleExpected: nat := ReadMultipleSlots - 1

  /** `cmd_read_value`: one argument, a nonzero handle. */
  function ReadValueCmd(ready: bool, cmd: string, strtol: Strtol): (r: Option<Call>)
    ensures r.Some? <==> ready && |Tokens(cmd)| == 1 && HandleArg(Tokens(cmd)[0], strtol).Some?
    ensures r.Some? ==> r.value == ReadValue(HandleArg(Tokens(cmd)[0], strtol).value) && r.value.handle != 0
  {
    var p := ParseArgsResult(cmd, 1, 0);
    if !ready || !p.ok || p.argc != 1 then None
    else
      match HandleArg(p.argv[0], strtol)
      case None => None
      case Some(h) => Some(ReadValue(h))
  }

  /** `cmd_read_long_value`: a nonzero handle and an offset. */
  function ReadLongValueCmd(ready: bool, cmd: string, strtol: Strtol): (r: Option<Call>)
    ensures r.Some? <==> ready && |Tokens(cmd)| == 2
                         && HandleArg(Tokens(cmd)[0], strtol).Some? && OffsetArg(Tokens(cmd)[1], false, strtol).Some?
    ensures r.Some? ==> r.value == ReadLongValue(HandleArg(Tokens(cmd)[0], strtol).value, OffsetArg(Tokens(cmd)[1], false, strtol).value)
                        && r.value.handle != 0
  {
    var p := ParseArgsResult(cmd, 2, 0);
    if !ready || !p.ok || p.argc != 2 then None
    else
      match (HandleArg(p.argv[0], strtol), OffsetArg(p.argv[1], false, strtol))
      case (Some(h), Some(o)) => Some(ReadLongValue(h, o))
      case _ => None
  }

  /**
   * `cmd_read_multiple` with `expected_argc` as a parameter: at least two
   * arguments, every one a nonzero handle.  The `int argc` goes to the
   * library's `uint8_t` count, so it arrives modulo 256.
   */
  function ReadMultipleWith(ready: bool, cmd: string, strtol: Strtol, expected: nat): (r: Option<Call>)
    ensures r.Some? <==> ready && 2 <= |Tokens(cmd)| <= expected && HandleArgs(Tokens(cmd), strtol).Some?
    ensures r.Some? ==> r.value.ReadMultiple? && r.value.handles == HandleArgs(Tokens(cmd), strtol).value
                        && |r.value.handles| == |Tokens(cmd)|
                        && (r.value.count as int - |Tokens(cmd)|) % 0x100 == 0
                        && (|Tokens(cmd)| < 0x100 ==> r.value.count as int == |Tokens(cmd)|)
                        && forall i :: 0 <= i < |r.value.handles| ==> r.value.handles[i] != 0
  {
    var p := ParseArgsResult(cmd, expected, 0);
    if !ready || !p.ok || p.argc < 2 then None
    else
      match HandleArgs(p.argv, strtol)
      case None => None
      case Some(hs) => Some(ReadMultiple(hs, Wrap8(|hs|)))
  }

  /** `cmd_read_multiple` as written, on a host with `pointerSize`-byte pointers. */
  function ReadMultipleCmdAsWritten(ready: bool, cmd: string, strtol: Strtol, pointerSize: nat): (r: Option<Call>)
    ensures r.Some? <==> ready && 2 <= |Tokens(cmd)| <= ReadMultipleExpectedAsWritten(pointerSize)
                         && HandleArgs(Tokens(cmd), strtol).Some?
    ensures r.Some? ==> r.value.ReadMultiple? && r.value.handles == HandleArgs(Tokens(cmd), strtol).value
                        && (r.value.count as int - |Tokens(cmd)|) % 0x100 == 0
  {
    ReadMultipleWith(ready, cmd, strtol, ReadMultipleExpectedAsWritten(pointerSize))
  }

  /** `cmd_read_multiple` with the element count its `argv` can hold. */
  function ReadMultipleCmd(ready: bool, cmd: string, strtol: Strtol): (r: Option<Call>)
    ensures r.Some? <==> ready && 2 <= |Tokens(cmd)| < ReadMultipleSlots && HandleArgs(Tokens(cmd), strtol).Some?
    ensures r.Some? ==> r.value.ReadMultiple? && r.value.handles == HandleArgs(Tokens(cmd), strtol).value
                        && (r.value.count as int - |Tokens(cmd)|) % 0x100 == 0
  {
    ReadMultipleWith(ready, cmd, strtol, ReadMultipleExpected)
  }

  /**
   * `sizeof(argv)` lets `parse_args` store up to `512 * pointerSize` words
   * into 512 slots: some command string makes it write slot 512 or beyond.
   */
  lemma ReadMultipleOverruns(pointerSize: nat)
    requires pointerSize >= 1
    ensures !CallerSafe(ReadMultipleExpectedAsWritten(pointerSize), 0, ReadMultipleSlots)
    ensures ParseArgsResult(Words(ReadMultipleSlots), ReadMultipleExpectedAsWritten(pointerSize), 0).lastSlot >= ReadMultipleSlots
  {
    CallerSafeIff(ReadMultipleExpectedAsWritten(pointerSize), 0, ReadMultipleSlots);
    WordsTokens(ReadMultipleSlots);
  }

  /**
   * Even with the corrected element count, 256 handles are accepted but
   * reach the library with a count of 0: the `uint8_t` count wraps.
   */
  lemma ReadMultipleCountWraps(cmd: string, strtol: Strtol)
    requires forall t :: strtol(t, 0) == Some(Conversion(1, false))
    requires |Tokens(cmd)| == 0x100
    ensures ReadMultipleCmd(true, cmd, strtol).Some? && ReadMultipleCmd(true, cmd, strtol).value.count == 0
  {
    OnesAreHandles(Tokens(cmd), strtol);
    var r := ReadMultipleCmd(true, cmd, strtol);
    assert r.Some?;
    assert (r.value.count as int - 0x100) % 0x100 == 0;
  }

  lemma OnesAreHandles(toks: seq<string>, strtol: Strtol)
    requires forall t :: strtol(t, 0) == Some(Conversion(1, false))
    ensures HandleArgs(toks, strtol).Some?
  {
    forall i | 0 <= i < |toks| ensures HandleArg(toks[i], strtol).Some? {
      assert strtol(toks[i], 0) == Some(Conversion(1, false));
    }
  }

  /** With 511 as the element count, no command string overruns `argv[512]`. */
  lemma ReadMultipleSafe()
    ensures CallerSafe(ReadMultipleExpected, 0, ReadMultipleSlots)
  {
    CallerSafeIff(ReadMultipleExpected, 0, ReadMultipleSlots);
  }

  /**
   * `cmd_write_value` after option parsing: a nonzero handle, then value
   * bytes read in base 16 of any length.  `-w` selects a write without
   * response, which alone carries the `-s` signing flag.
   */
  function WriteValueOperands(ready: bool, withoutResponse: bool, signedWrite: bool, args: seq<string>, strtol: Strtol): (r: Option<Call>)
    ensures r.Some? <==> ready && |args| >= 1 && HandleArg(args[0], strtol).Some?
                         && |args| - 1 <= MaxValueLength && ValueBytes(args[1..], Base16, strtol).Some?
    ensures r.Some? && withoutResponse ==> r.value == WriteWithoutResponse(HandleArg(args[0], strtol).value, signedWrite, ValueBytes(args[1..], Base16, strtol).value)
    ensures r.Some? && !withoutResponse ==> r.value == WriteValue(HandleArg(args[0], strtol).value, ValueBytes(args[1..], Base16, strtol).value)
  {
    if !ready || |args| < 1 then None
    else
      match HandleArg(args[0], strtol)
      case None => None
      case Some(h) =>
        if |args| - 1 > MaxValueLength then None
        else
          match ValueBytes(args[1..], Base16, strtol)
          case None => None
          case Some(v) => if withoutResponse then Some(WriteWithoutResponse(h, signedWrite, v)) else Some(WriteValue(h, v))
  }

  /**
   * `cmd_write_long_value` after option parsing: a nonzero handle, an offset
   * without `ERANGE`, and value bytes of exactly two characters each.
   */
  function WriteLongValueOperands(ready: bool, reliable: bool, args: seq<string>, strtol: Strtol): (r: Option<Call>)
    ensures r.Some? <==> ready && |args| >= 2 && HandleArg(args[0], strtol).Some? && OffsetArg(args[1], true, strtol).Some?
                         && |args| - 2 <= MaxValueLength && ValueBytes(args[2..], TwoCharacters, strtol).Some?
    ensures r.Some? ==> r.value == WriteLongValue(reliable, HandleArg(args[0], strtol).value,
                                                  OffsetArg(args[1], true, strtol).value,
                                                  ValueBytes(args[2..], TwoCharacters, strtol).value)
    ensures r.Some? ==> forall i :: 2 <= i < |args| ==> |args[i]| == 2
  {
    if !ready || |args| < 2 then None
    else
      var h := HandleArg(args[0], strtol);
      var o := OffsetArg(args[1], true, strtol);
      var v := ValueBytes(args[2..], TwoCharacters, strtol);
      if h.None? || o.None? || |args| - 2 > MaxValueLength || v.None? then None
      else
        assert forall i :: 2 <= i < |args| ==> args[2..][i - 2] == args[i];
        Some(WriteLongValue(reliable, h.value, o.value, v.value))
  }

  /**
   * The reliable-write session state after a command, and the library call
   * the command issued, if any.
   */
  datatype Step = Step(session: uint32, issued: Option<Call>)

  /**
   * `cmd_write_prepare` after option parsing.  `id` is the `-s` value
   * (default 0), `session` is `cli->reliable_session_id`, and `returned` is
   * what `bt_gatt_client_prepare_write` returns (0 on failure).
   */
  function WritePrepareOperands(ready: bool, session: uint32, id: uint32, args: seq<string>, strtol: Strtol, returned: uint32): (r: Step)
    ensures id != session ==> r == Step(session, None)
    ensures r.issued.None? ==> r.session == session
    ensures r.issued.Some? <==> ready && id == session && |args| >= 3 && HandleArg(args[0], strtol).Some?
                                && OffsetArg(args[1], true, strtol).Some? && |args| - 2 <= MaxValueLength
                                && ValueBytes(args[2..], TwoCharacters, strtol).Some?
    ensures r.issued.Some? ==> r.session == returned
                               && r.issued.value == PrepareWrite(id, HandleArg(args[0], strtol).value,
                                                                 OffsetArg(args[1], true, strtol).value,
                                                                 ValueBytes(args[2..], TwoCharacters, strtol).value)
    ensures r.issued.Some? ==> forall i :: 2 <= i < |args| ==> |args[i]| == 2
  {
    if !ready || |args| < 3 || session != id then Step(session, None)
    else
      var h := HandleArg(args[0], strtol);
      var o := OffsetArg(args[1], true, strtol);
      var v := ValueBytes(args[2..], TwoCharacters, strtol);
      if h.None? || o.None? || |args| - 2 > MaxValueLength || v.None? then Step(session, None)
      else
        assert forall i :: 2 <= i < |args| ==> args[2..][i - 2] == args[i];
        Step(returned, Some(PrepareWrite(id, h.value, o.value, v.value)))
  }

  /**
   * `expected_argc` of the three write commands' `parse_args` calls.
   * `write-value` and `write-long-value` start counting from `argc = 1`, so
   * they take at most 513 tokens; `write-prepare` starts from 0 and takes
   * 514.  The limit counts option tokens too: it is checked before
   * `getopt_long` runs, and a longer command prints "Too many arguments".
   */
  const WriteExpected: nat := 514

  /** `cmd_write_value`: `parse_args`, then `getopt_long` with "+ws", then the operands. */
  function WriteValueCmd(ready: bool, cmd: string, getopt: Getopt, strtol: Strtol): (r: Option<Call>)
    requires OperandsFromTokens(getopt)
    ensures |Tokens(cmd)| > WriteExpected - 1 ==> r.None?
    ensures r.Some? <==> (ready && |Tokens(cmd)| <= WriteExpected - 1 && getopt(Tokens(cmd)).Some?
                          && var o := getopt(Tokens(cmd)).value;
                             |o.operands| >= 1 && HandleArg(o.operands[0], strtol).Some?
                             && ValueBytes(o.operands[1..], Base16, strtol).Some?)
    ensures r.Some? ==> var o := getopt(Tokens(cmd)).value;
                        var h := HandleArg(o.operands[0], strtol).value;
                        var v := ValueBytes(o.operands[1..], Base16, strtol).value;
                        r.value == if o.withoutResponse then WriteWithoutResponse(h, o.signedWrite, v) else WriteValue(h, v)
  {
    var p := ParseArgsResult(cmd, WriteExpected, 1);
    if !p.ok then None
    else
      match getopt(p.argv)
      case None => None
      case Some(o) => WriteValueOperands(ready, o.withoutResponse, o.signedWrite, o.operands, strtol)
  }

  /** `cmd_write_long_value`: `parse_args`, then `getopt_long` with "+r", then the operands. */
  function WriteLongValueCmd(ready: bool, cmd: string, getopt: Getopt, strtol: Strtol): (r: Option<Call>)
    requires OperandsFromTokens(getopt)
    ensures |Tokens(cmd)| > WriteExpected - 1 ==> r.None?
    ensures r.Some? <==> (ready && |Tokens(cmd)| <= WriteExpected - 1 && getopt(Tokens(cmd)).Some?
                          && var o := getopt(Tokens(cmd)).value;
                             |o.operands| >= 2 && HandleArg(o.operands[0], strtol).Some?
                             && OffsetArg(o.operands[1], true, strtol).Some?
                             && ValueBytes(o.operands[2..], TwoCharacters, strtol).Some?)
    ensures r.Some? ==> var o := getopt(Tokens(cmd)).value;
                        r.value == WriteLongValue(o.reliable, HandleArg(o.operands[0], strtol).value,
                                                  OffsetArg(o.operands[1], true, strtol).value,
                                                  ValueBytes(o.operands[2..], TwoCharacters, strtol).value)
  {
    var p := ParseArgsResult(cmd, WriteExpected, 1);
    if !p.ok then None
    else
      match getopt(p.argv)
      case None => None
      case Some(o) => WriteLongValueOperands(ready, o.reliable, o.operands, strtol)
  }

  /**
   * `cmd_write_prepare`: `parse_args` from `argc = 0`, then `getopt_long`
   * with "s:", then the session guard and the operands.  `session` is
   * `cli->reliable_session_id`; `returned` is what
   * `bt_gatt_client_prepare_write` returns (0 on failure).
   */
  function WritePrepareCmd(ready: bool, session: uint32, cmd: string, getopt: Getopt, strtol: Strtol, returned: uint32): (r: Step)
    requires OperandsFromTokens(getopt)
    ensures r.issued.None? ==> r.session == session
    ensures |Tokens(cmd)| > WriteExpected ==> r == Step(session, None)
    ensures r.issued.Some? <==> (ready && |Tokens(cmd)| <= WriteExpected && getopt(Tokens(cmd)).Some?
                                 && var o := getopt(Tokens(cmd)).value;
                                    o.sessionId == session && |o.operands| >= 3
                                    && HandleArg(o.operands[0], strtol).Some?
                                    && OffsetArg(o.operands[1], true, strtol).Some?
                                    && ValueBytes(o.operands[2..], TwoCharacters, strtol).Some?)
    ensures r.issued.Some? ==> var o := getopt(Tokens(cmd)).value;
                               r.session == returned
                               && r.issued.value == PrepareWrite(session, HandleArg(o.operands[0], strtol).value,
                                                                 OffsetArg(o.operands[1], true, strtol).value,
                                                                 ValueBytes(o.operands[2..], TwoCharacters, strtol).value)
  {
    var p := ParseArgsResult(cmd, WriteExpected, 0);
    if !p.ok then Step(session, None)
    else
      match getopt(p.argv)
      case None => Step(session, None)
      case Some(o) => WritePrepareOperands(ready, session, o.sessionId, o.operands, strtol, returned)
  }

  /**
   * The `length > UINT16_MAX` tests of the three write commands never
   * refuse anything: `parse_args` has already capped the tokens at 514.
   */
  lemma WriteLengthChecksUnreachable(cmd: string, getopt: Getopt)
    requires OperandsFromTokens(getopt)
    requires ParseArgsResult(cmd, WriteExpected, 0).ok && getopt(Tokens(cmd)).Some?
    ensures |getopt(Tokens(cmd)).value.operands| <= MaxValueLength
  {
  }

  /** A write of 514 tokens or more prints "Too many arguments" and issues nothing, whatever the tokens are. */
  lemma TooManyWriteArguments(ready: bool, getopt: Getopt, strtol: Strtol)
    requires OperandsFromTokens(getopt)
    ensures WriteValueCmd(ready, Words(WriteExpected), getopt, strtol).None?
    ensures WriteLongValueCmd(ready, Words(WriteExpected), getopt, strtol).None?
  {
    WordsTokens(WriteExpected);
  }

  /** A session id argument: `strtol` stored in an `unsigned int`. */
  function SessionArg(tok: string, strtol: Strtol): (r: Option<uint32>)
    ensures strtol(tok, 0).None? <==> r.None?
    ensures r.Some? ==> (r.value - strtol(tok, 0).value.value) % 0x1_0000_0000 == 0
    ensures r.Some? && 0 <= strtol(tok, 0).value.value < 0x1_0000_0000 ==> r.value == strtol(tok, 0).value.value
  {
    match strtol(tok, 0)
    case None => None
    case Some(c) => Some(Wrap32(c.value))
  }

  /**
   * `cmd_write_execute <session_id> <execute>`: refused unless the id matches
   * the active session; otherwise commits when `execute` is nonzero, cancels
   * when it is zero, and in both cases ends the session.
   */
  function WriteExecuteCmd(ready: bool, session: uint32, cmd: string, strtol: Strtol): (r: Step)
    ensures r.issued.None? ==> r.session == session
    ensures r.issued.Some? ==> r.session == 0
    ensures r.issued.Some? <==> ready && 2 <= |Tokens(cmd)| <= 514 && SessionArg(Tokens(cmd)[0], strtol) == Some(session)
                                && strtol(Tokens(cmd)[1], 0).Some?
    ensures r.issued.Some? ==> r.issued.value == if strtol(Tokens(cmd)[1], 0).value.value != 0 then WriteExecute(session) else Cancel(session)
  {
    var p := ParseArgsResult(cmd, 514, 0);
    if !ready || !p.ok || p.argc < 2 then Step(session, None)
    else
      match SessionArg(p.argv[0], strtol)
      case None => Step(session, None)
      case Some(sid) =>
        if sid != session then Step(session, None)
        else
          match strtol(p.argv[1], 0)
          case None => Step(session, None)
          case Some(c) => Step(0, Some(if c.value != 0 then WriteExecute(sid) else Cancel(sid)))
  }

  /** `cmd_register_notify`: one argument, a nonzero handle. */
  function RegisterNotifyCmd(ready: bool, cmd: string, strtol: Strtol): (r: Option<Call>)
    ensures r.Some? <==> ready && |Tokens(cmd)| == 1 && HandleArg(Tokens(cmd)[0], strtol).Some?
    ensures r.Some? ==> r.value == RegisterNotify(HandleArg(Tokens(cmd)[0], strtol).value) && r.value.handle != 0
  {
    var p := ParseArgsResult(cmd, 1, 0);
    if !ready || !p.ok || p.argc != 1 then None
    else
      match HandleArg(p.argv[0], strtol)
      case None => None
      case Some(h) => Some(RegisterNotify(h))
  }

  /** `cmd_unregister_notify`: one argument, a nonzero notification id. */
  function UnregisterNotifyCmd(ready: bool, cmd: string, strtol: Strtol): (r: Option<Call>)
    ensures r.Some? <==> ready && |Tokens(cmd)| == 1 && SessionArg(Tokens(cmd)[0], strtol).Some?
                         && SessionArg(Tokens(cmd)[0], strtol).value != 0
    ensures r.Some? ==> r.value == UnregisterNotify(SessionArg(Tokens(cmd)[0], strtol).value) && r.value.id != 0
  {
    var p := ParseArgsResult(cmd, 1, 0);
    if !ready || !p.ok || p.argc != 1 then None
    else
      match SessionArg(p.argv[0], strtol)
      case None => None
      case Some(id) => if id == 0 then None else Some(UnregisterNotify(id))
  }

  /** A level argument: `strtol` stored in an `int`. */
  function LevelArg(tok: string, strtol: Strtol): (r: Option<int>)
    ensures strtol(tok, 0).None? <==> r.None?
    ensures r.Some? ==> -0x8000_0000 <= r.value < 0x8000_0000
    ensures r.Some? && -0x8000_0000 <= strtol(tok, 0).value.value < 0x8000_0000 ==> r.value == strtol(tok, 0).value.value
  {
    match strtol(tok, 0)
    case None => None
    case Some(c) => Some(Int32Of(c.value))
  }

  /** `cmd_set_security` with its `argv` capacity aside: one level between 1 and 3. */
  function SetSecurityCmd(ready: bool, cmd: string, strtol: Strtol): (r: Option<Call>)
    ensures r.Some? <==> ready && |Tokens(cmd)| == 1 && LevelArg(Tokens(cmd)[0], strtol).Some?
                         && ValidLevel(LevelArg(Tokens(cmd)[0], strtol).value)
    ensures r.Some? ==> r.value == SetSecurity(LevelArg(Tokens(cmd)[0], strtol).value) && ValidLevel(r.value.level)
  {
    var p := ParseArgsResult(cmd, 1, 0);
    if !ready || !p.ok || p.argc < 1 then None
    else
      match LevelArg(p.argv[0], strtol)
      case None => None
      case Some(level) => if ValidLevel(level) then Some(SetSecurity(level)) else None
  }

  /**
   * `cmd_set_security` declares `char *argvbuf[1]`, but `parse_args` also
   * stores the terminating NULL: even the well-formed command "2" writes
   * slot 1, past the end.
   */
  lemma SetSecurityOverruns()
    ensures !CallerSafe(1, 0, SetSecuritySlotsAsWritten)
    ensures ParseArgsResult("2", 1, 0).ok && ParseArgsResult("2", 1, 0).lastSlot == SetSecuritySlotsAsWritten
  {
    CallerSafeIff(1, 0, SetSecuritySlotsAsWritten);
    assert FirstSeparator("2") == 1 by { assert FirstSeparator("2"[1..]) == 0; }
    assert "2"[..1] == "2";
    assert Fields("2") == ["2"];
    assert NonEmpty(["2"]) == ["2"] by { assert ["2"][1..] == []; }
  }

  /** Two slots are enough for the one argument and the NULL. */
  lemma SetSecuritySafe()
    ensures CallerSafe(1, 0, SetSecuritySlots)
  {
    CallerSafeIff(1, 0, SetSecuritySlots);
  }

  /** Every other `parse_args` call site of the tool leaves room for the NULL. */
  lemma OtherCallersSafe()
    ensures CallerSafe(1, 0, ReadValueSlots)                // read-value
    ensures CallerSafe(1, 0, NotifySlots)                   // register-notify, unregister-notify
    ensures CallerSafe(2, 0, ReadLongValueSlots)            // services, read-long-value
    ensures CallerSafe(2, 0, SignKeySlots)                  // set-sign-key
    ensures CallerSafe(514, 1, WriteSlots)                  // write-value, write-long-value
    ensures CallerSafe(514, 0, WriteSlots)                  // write-prepare
    ensures CallerSafe(514, 0, ExecuteSlots)                // write-execute
  {
    CallerSafeIff(1, 0, ReadValueSlots);
    CallerSafeIff(1, 0, NotifySlots);
    CallerSafeIff(2, 0, ReadLongValueSlots);
    CallerSafeIff(2, 0, SignKeySlots);
    CallerSafeIff(514, 1, WriteSlots);
    CallerSafeIff(514, 0, WriteSlots);
    CallerSafeIff(514, 0, ExecuteSlots);
  }

  /** `cmd_get_security`: takes no arguments and ignores whatever follows the command. */
  function GetSecurityCmd(ready: bool, cmd: string): (r: Option<Call>)
    ensures r.Some? <==> ready
    ensures r.Some? ==> r.value.GetSecurity?
  {
    if ready then Some(GetSecurity) else None
  }

  /** The result of the `--mtu` option check in `main`. */
  datatype MtuOption = Mtu(value: uint16) | InvalidMtu | MtuTooLarge

  /** `--mtu`: `atoi(optarg)` must be positive and fit a `uint16_t`. */
  function MtuArg(arg: int): (r: MtuOption)
    ensures r.Mtu? <==> 1 <= arg <= 0xFFFF
    ensures r.Mtu? ==> r.value == arg
    ensures r == InvalidMtu <==> arg <= 0
  {
    if arg <= 0 then InvalidMtu
    else if arg > 0xFFFF then MtuTooLarge
    else Mtu(arg)
  }

  /** `--security-level`: the three names `main` accepts, as `BT_SECURITY_*` values. */
  function SecurityLevelArg(name: string): (r: Option<int>)
    ensures r.Some? <==> name in {"low", "medium", "high"}
    ensures r.Some? ==> ValidLevel(r.value)
  {
    if name == "low" then Some(1)
    else if name == "medium" then Some(2)
    else if name == "high" then Some(3)
    else None
  }

  /** The security option maps the three names to three distinct levels, in order of strength. */
  lemma SecurityLevelsOrdered()
    ensures SecurityLevelArg("low").value < SecurityLevelArg("medium").value < SecurityLevelArg("high").value
  {
  }

  predicate IsHexDigit(c: char)
  {
    '0' <= c <= '9' || 'a' <= c <= 'f' || 'A' <= c <= 'F'
  }

  function HexValue(c: char): (r: nat)
    requires IsHexDigit(c)
    ensures r < 16
  {
    if '0' <= c <= '9' then c as int - '0' as int
    else if 'a' <= c <= 'f' then c as int - 'a' as int + 10
    else c as int - 'A' as int + 10
  }

  /**
   * `sscanf(s, "%2hhx", &b) == 1`, as a parameter.  The model relies only on
   * what the format guarantees for text that starts with two hexadecimal
   * digits: it reads exactly those two.
   */
  type Scan = string -> Option<uint8>

  ghost predicate ScansHexPairs(scan: Scan)
  {
    forall t: string {:trigger scan(t)} :: |t| >= 2 && IsHexDigit(t[0]) && IsHexDigit(t[1]) ==> scan(t) == Some(HexValue(t[0]) * 16 + HexValue(t[1]))
  }

  /** Scans key bytes `i` .. 15 from positions `2i`, `2i + 2`, ... of `s`. */
  function ScanKey(s: string, i: nat, scan: Scan): (r: Option<seq<uint8>>)
    requires |s| == 2 * SignKeySize && i <= SignKeySize
    ensures r.Some? ==> |r.value| == SignKeySize - i
    ensures r.Some? ==> forall j :: i <= j < SignKeySize ==> scan(s[2 * j..]) == Some(r.value[j - i])
    decreases SignKeySize - i
  {
    if i == SignKeySize then Some([])
    else
      match (scan(s[2 * i..]), ScanKey(s, i + 1, scan))
      case (Some(b), Some(rest)) => Some([b] + rest)
      case _ => None
  }

  /** `convert_sign_key`: 32 characters, read as 16 bytes two characters at a time. */
  function ConvertSignKey(s: string, scan: Scan): (r: Option<seq<uint8>>)
    ensures |s| != 2 * SignKeySize ==> r.None?
    ensures r.Some? ==> |r.value| == SignKeySize
    ensures r.Some? ==> forall j :: 0 <= j < SignKeySize ==> scan(s[2 * j..]) == Some(r.value[j])
  {
    if |s| != 2 * SignKeySize then None else ScanKey(s, 0, scan)
  }

  function HexDigitOf(v: nat): (c: char)
    requires v < 16
    ensures IsHexDigit(c) && HexValue(c) == v
  {
    if v < 10 then ('0' as int + v) as char else ('A' as int + v - 10) as char
  }

  /** The text form of a key, as in `set-sign-key -c D8515948451FEA320DC05A2E88308188`. */
  function HexEncode(key: seq<uint8>): (s: string)
    ensures |s| == 2 * |key|
  {
    if |key| == 0 then [] else [HexDigitOf(key[0] / 16), HexDigitOf(key[0] % 16)] + HexEncode(key[1..])
  }

  /** Characters `2j` and `2j + 1` of the text spell byte `j`. */
  lemma {:induction false} HexEncodeDigits(key: seq<uint8>, j: nat)
    requires j < |key|
    ensures IsHexDigit(HexEncode(key)[2 * j]) && IsHexDigit(HexEncode(key)[2 * j + 1])
    ensures HexValue(HexEncode(key)[2 * j]) * 16 + HexValue(HexEncode(key)[2 * j + 1]) == key[j]
  {
    if j > 0 {
      HexEncodeDigits(key[1..], j - 1);
      var s := HexEncode(key);
      var rest := HexEncode(key[1..]);
      assert s[2 * j] == rest[2 * (j - 1)];
      assert s[2 * j + 1] == rest[2 * (j - 1) + 1];
    }
  }

  /** A scanner that reads hex pairs, started at character `2j` of text whose pair `j` spells `v`, yields `v`. */
  lemma ScanAtPair(s: string, j: nat, v: uint8, scan: Scan)
    requires 2 * j + 1 < |s| && IsHexDigit(s[2 * j]) && IsHexDigit(s[2 * j + 1])
    requires HexValue(s[2 * j]) * 16 + HexValue(s[2 * j + 1]) == v as int
    requires ScansHexPairs(scan)
    ensures scan(s[2 * j..]) == Some(v)
  {
    var t := s[2 * j..];
    assert t[0] == s[2 * j] && t[1] == s[2 * j + 1];
  }

  /** When every pair from byte `i` on scans as `key` does, `ScanKey` returns the rest of `key`. */
  lemma {:induction false} ScanKeyOf(s: string, key: seq<uint8>, i: nat, scan: Scan)
    requires |s| == 2 * SignKeySize && |key| == SignKeySize && i <= SignKeySize
    requires forall j :: i <= j < SignKeySize ==> scan(s[2 * j..]) == Some(key[j])
    ensures ScanKey(s, i, scan) == Some(key[i..])
    decreases SignKeySize - i
  {
    if i < SignKeySize {
      ScanKeyOf(s, key, i + 1, scan);
      assert key[i..] == [key[i]] + key[i + 1..];
    } else {
      assert key[i..] == [];
    }
  }

  /** Round trip: the hex text of any 16-byte key converts back to that key. */
  lemma SignKeyRoundTrip(key: seq<uint8>, scan: Scan)
    requires |key| == SignKeySize
    requires ScansHexPairs(scan)
    ensures ConvertSignKey(HexEncode(key), scan) == Some(key)
  {
    var s := HexEncode(key);
    forall j | 0 <= j < SignKeySize
      ensures scan(s[2 * j..]) == Some(key[j])
    {
      HexEncodeDigits(key, j);
      ScanAtPair(s, j, key[j], scan);
    }
    ScanKeyOf(s, key, 0, scan);
  }

  /**
   * `cmd_set_sign_key -c <key>` / `--sign-key <key>`: exactly two arguments.
   * This command does not check that the client is ready.
   */
  function SetSignKeyCmd(cmd: string, scan: Scan): (r: Option<Call>)
    ensures r.Some? <==> |Tokens(cmd)| == 2 && Tokens(cmd)[0] in {"-c", "--sign-key"}
                         && ConvertSignKey(Tokens(cmd)[1], scan).Some?
    ensures r.Some? ==> r.value == SetLocalKey(ConvertSignKey(Tokens(cmd)[1], scan).value)
  {
    var p := ParseArgsResult(cmd, 2, 0);
    if !p.ok || p.argc != 2 then None
    else if p.argv[0] != "-c" && p.argv[0] != "--sign-key" then None
    else
      match ConvertSignKey(p.argv[1], scan)
      case None => None
      case Some(key) => Some(SetLocalKey(key))
  }
}

=== FILE: joystick.dfy ===
/**
 * `Joystick` (`src/util/joystick.cpp`): the state the input thread keeps
 * for a Linux joystick device, one (x, y) pair per axis and one callback
 * per button, and how each `js_event` read from the device changes it.
 *
 * Opening the device, the two `ioctl` queries, the thread and its 60 Hz
 * pacing are not modelled: the counts the queries report (or their
 * failure) are parameters, and the input thread is a sequence of events.
 * Callbacks are opaque; a callback that runs is recorded as a `Press`.
 */
module Joystick {
  import opened Common

  /** `JS_EVENT_BUTTON`, `JS_EVENT_AXIS` and `JS_EVENT_INIT` of `linux/joystick.h`. */
  const EventButton: uint8 := 0x01
  const EventAxis: uint8 := 0x02
  const EventInit: uint8 := 0x80

  /** `struct js_event`, without its timestamp. */
  datatype Event = Event(value: int16, kind: uint8, number: uint8)

  /** An opaque `std::function<void(bool)>`. */
  type Callback = nat

  datatype AxisState = AxisState(x: int16, y: int16)

  /** The counts the device reported, the axis states and the button callbacks (`None` for an empty one). */
  datatype Stick = Stick(numAxes: uint8, numButtons: uint8, axes: seq<AxisState>, buttons: seq<Option<Callback>>)

  ghost predicate Valid(j: Stick)
  {
    |j.axes| == j.numAxes && |j.buttons| == j.numButtons
  }

  /**
   * The constructor: `None` when opening the device or either `ioctl` failed
   * (it throws), and otherwise every axis at (0, 0) and no callback.
   */
  function Construct(deviceOpen: bool, numAxes: Option<uint8>, numButtons: Option<uint8>): (r: Option<Stick>)
    ensures r.Some? <==> deviceOpen && numAxes.Some? && numButtons.Some?
    ensures r.Some? ==> Valid(r.value) && r.value.numAxes == numAxes.value && r.value.numButtons == numButtons.value
    ensures r.Some? ==> forall i :: 0 <= i < |r.value.axes| ==> r.value.axes[i] == AxisState(0, 0)
    ensures r.Some? ==> forall i :: 0 <= i < |r.value.buttons| ==> r.value.buttons[i].None?
  {
    if !deviceOpen || numAxes.None? || numButtons.None? then None
    else Some(Stick(numAxes.value, numButtons.value, seq(numAxes.value, _ => AxisState(0, 0)), seq(numButtons.value, _ => None)))
  }

  /** `get_axis_state`: throws (`None`) iff `axis` is not below the axis count. */
  function GetAxisState(j: Stick, axis: uint8): (r: Option<AxisState>)
    requires Valid(j)
    ensures r.Some? <==> axis < j.numAxes
    ensures r.Some? ==> r.value == j.axes[axis]
  {
    if axis >= j.numAxes then None else Some(j.axes[axis])
  }

  /** `set_button_callback`: throws (`None`) iff `button` is not below the button count. */
  function SetButtonCallback(j: Stick, button: uint8, callback: Option<Callback>): (r: Option<Stick>)
    requires Valid(j)
    ensures r.Some? <==> button < j.numButtons
    ensures r.Some? ==> Valid(r.value) && r.value.axes == j.axes
    ensures r.Some? ==> r.value.numAxes == j.numAxes && r.value.numButtons == j.numButtons
    ensures r.Some? ==> r.value.buttons[button] == callback
    ensures r.Some? ==> forall i :: 0 <= i < |j.buttons| && i != button as int ==> r.value.buttons[i] == j.buttons[i]
  {
    if button >= j.numButtons then None else Some(j.(buttons := j.buttons[button := callback]))
  }

  /** A button callback that ran, with its argument. */
  datatype Press = Press(callback: Callback, pressed: bool)

  /** One event's effect: the new state and the callback that ran, if any. */
  datatype Handled = Handled(stick: Stick, press: Option<Press>)

  /**
   * The source indexes the button and axis tables with the event number
   * unchecked, so the event must name an existing button or axis.
   */
  ghost predicate InBounds(j: Stick, e: Event)
  {
    && (e.kind == EventButton ==> e.number < j.numButtons)
    && (e.kind == EventAxis ==> e.number / 2 < j.numAxes)
  }

  /** The `switch (event.type)` of `input_thread_func`. */
  function HandleEvent(j: Stick, e: Event): (r: Handled)
    requires Valid(j) && InBounds(j, e)
    ensures Valid(r.stick) && r.stick.numAxes == j.numAxes && r.stick.numButtons == j.numButtons
    ensures r.stick.buttons == j.buttons
    ensures e.kind != EventAxis ==> r.stick == j
    ensures r.press.Some? <==> e.kind == EventButton && j.buttons[e.number].Some?
    ensures r.press.Some? ==> r.press.value == Press(j.buttons[e.number].value, e.value != 0)
    ensures e.kind == EventAxis && e.number % 2 == 0 ==> r.stick.axes == j.axes[e.number / 2 := j.axes[e.number / 2].(x := e.value)]
    ensures e.kind == EventAxis && e.number % 2 == 1 ==> r.stick.axes == j.axes[e.number / 2 := j.axes[e.number / 2].(y := e.value)]
  {
    if e.kind == EventButton then
      var cb := j.buttons[e.number];
      Handled(j, if cb.Some? then Some(Press(cb.value, e.value != 0)) else None)
    else if e.kind == EventAxis then
      var axis := e.number / 2;
      var a := j.axes[axis];
      Handled(j.(axes := j.axes[axis := if e.number % 2 == 0 then a.(x := e.value) else a.(y := e.value)]), None)
    else
      Handled(j, None)
  }

  /**
   * An axis event is visible through `get_axis_state`: event number `n`
   * sets the x of axis `n / 2` when `n` is even and its y when odd, and
   * every other axis reads as before.
   */
  lemma AxisEventObserved(j: Stick, e: Event, axis: uint8)
    requires Valid(j) && e.kind == EventAxis && e.number / 2 < j.numAxes && axis < j.numAxes
    ensures var after := HandleEvent(j, e).stick;
            && (axis as int == e.number / 2 && e.number % 2 == 0 ==>
                  GetAxisState(after, axis) == Some(AxisState(e.value, j.axes[axis].y)))
            && (axis as int == e.number / 2 && e.number % 2 == 1 ==>
                  GetAxisState(after, axis) == Some(AxisState(j.axes[axis].x, e.value)))
            && (axis as int != e.number / 2 ==> GetAxisState(after, axis) == GetAxisState(j, axis))
  {
  }

  /** The two event numbers of one axis touch different coordinates, so their order does not matter. */
  lemma AxisPairCommutes(j: Stick, k: uint8, vx: int16, vy: int16)
    requires Valid(j) && k < j.numAxes && k <= 127
    ensures var ex := Event(vx, EventAxis, 2 * k);
            var ey := Event(vy, EventAxis, 2 * k + 1);
            && HandleEvent(HandleEvent(j, ex).stick, ey).stick == HandleEvent(HandleEvent(j, ey).stick, ex).stick
            && HandleEvent(HandleEvent(j, ex).stick, ey).stick.axes[k] == AxisState(vx, vy)
  {
    var ex := Event(vx, EventAxis, 2 * k);
    var ey := Event(vy, EventAxis, 2 * k + 1);
    assert ex.number / 2 == k as int && ex.number % 2 == 0;
    assert ey.number / 2 == k as int && ey.number % 2 == 1;
  }

  /**
   * The driver's synthetic start-up events carry `JS_EVENT_INIT` in their
   * type, so the exact-match `switch` ignores them: no axis moves and no
   * callback runs.
   */
  lemma InitEventsIgnored(j: Stick, e: Event)
    requires Valid(j) && (e.kind == EventInit + EventButton || e.kind == EventInit + EventAxis)
    ensures HandleEvent(j, e) == Handled(j, None)
  {
  }

  /** A callback just registered is the one a press of that button runs. */
  lemma RegisteredCallbackRuns(j: Stick, button: uint8, callback: Callback, value: int16)
    requires Valid(j) && button < j.numButtons
    ensures var after := SetButtonCallback(j, button, Some(callback)).value;
            HandleEvent(after, Event(value, EventButton, button)).press == Some(Press(callback, value != 0))
  {
  }

  /** Every event of `events` names an existing button or axis. */
  ghost predicate AllInBounds(j: Stick, events: seq<Event>)
  {
    forall i :: 0 <= i < |events| ==> InBounds(j, events[i])
  }

  /** Whether some axis event among `events` addresses axis `k`. */
  predicate Touches(events: seq<Event>, k: nat)
  {
    exists i :: 0 <= i < |events| && events[i].kind == EventAxis && events[i].number / 2 == k
  }

  /** The events handled in order: the final state and the callbacks that ran, in order. */
  function Replay(j: Stick, events: seq<Event>): (r: (Stick, seq<Press>))
    requires Valid(j) && AllInBounds(j, events)
    ensures Valid(r.0) && r.0.numAxes == j.numAxes && r.0.numButtons == j.numButtons && r.0.buttons == j.buttons
    decreases |events|
  {
    if |events| == 0 then (j, [])
    else
      var n := |events| - 1;
      assert AllInBounds(j, events[..n]);
      var (before, presses) := Replay(j, events[..n]);
      assert InBounds(before, events[n]);
      var h := HandleEvent(before, events[n]);
      (h.stick, presses + (if h.press.Some? then [h.press.value] else []))
  }

  /**
   * An axis no event addresses keeps its state, and with no callback
   * registered no event runs one.
   */
  lemma {:induction false} ReplayUntouched(j: Stick, events: seq<Event>)
    requires Valid(j) && AllInBounds(j, events)
    ensures forall k :: 0 <= k < j.numAxes && !Touches(events, k) ==> Replay(j, events).0.axes[k] == j.axes[k]
    ensures (forall b :: 0 <= b < |j.buttons| ==> j.buttons[b].None?) ==> Replay(j, events).1 == []
    decreases |events|
  {
    if |events| > 0 {
      var n := |events| - 1;
      assert AllInBounds(j, events[..n]);
      ReplayUntouched(j, events[..n]);
      forall k | 0 <= k < j.numAxes && !Touches(events, k)
        ensures !Touches(events[..n], k)
      {
      }
    }
  }

  /** The input thread, over the events it reads. */
  method InputThread(j: Stick, events: seq<Event>) returns (r: Stick, presses: seq<Press>)
    requires Valid(j) && AllInBounds(j, events)
    ensures (r, presses) == Replay(j, events)
    ensures Valid(r) && r.buttons == j.buttons
  {
    r := j;
    presses := [];
    var i := 0;
    while i < |events|
      invariant 0 <= i <= |events|
      invariant AllInBounds(j, events[..i])
      invariant (r, presses) == Replay(j, events[..i])
    {
      assert events[..i + 1][..i] == events[..i];
      assert AllInBounds(j, events[..i + 1]);
      assert InBounds(r, events[i]);
      var h := HandleEvent(r, events[i]);
      assert events[..i + 1][i] == events[i];
      assert Replay(j, events[..i + 1]) == (h.stick, presses + (if h.press.Some? then [h.press.value] else []));
      r := h.stick;
      presses := presses + (if h.press.Some? then [h.press.value] else []);
      i := i + 1;
    }
    assert events[..|events|] == events;
  }
}

=== FILE: leclient.dfy ===
/**
 * `bluetooth::BluetoothLEClient` (`src/bluetooth/bluetooth_le_client.cpp`),
 * the typed revision of the GATT client: every operation takes converted
 * arguments, and every operation throws "GATT client not initialized" when
 * `bt_gatt_client_is_ready` says the library is not ready (`gattReady` below).
 *
 * Unlike the other two revisions, `write_execute` does not compare its
 * session id with the active one.
 */
module LeClient {
  import opened Common
  import opened GattCalls
  import GattTool

  /** The client's own state: `ready_` and `reliable_session_id_`. */
  datatype Client = Client(ready: bool, session: uint32)

  /** Both members as the class declares them: `ready_{false}`, `reliable_session_id_{0}`. */
  const Initial: Client := Client(false, 0)

  /** An operation either throws or returns, having issued at most one library call. */
  datatype Outcome = NotInitialized | Done(client: Client, issued: Option<Call>)

  /** The guard every operation starts with. */
  function Guarded(gattReady: bool, c: Client, call: Call): (r: Outcome)
    ensures !gattReady <==> r == NotInitialized
    ensures gattReady ==> r == Done(c, Some(call))
  {
    if !gattReady then NotInitialized else Done(c, Some(call))
  }

  /** `read_multiple(handles, num_handles)`: the count is a `uint8_t`, so at most 255 handles. */
  function ReadMultiple(gattReady: bool, c: Client, handles: seq<uint16>): (r: Outcome)
    requires |handles| <= 0xFF
    ensures !gattReady <==> r == NotInitialized
    ensures gattReady ==> r == Done(c, Some(Call.ReadMultiple(handles, |handles| as uint8)))
  {
    Guarded(gattReady, c, Call.ReadMultiple(handles, |handles| as uint8))
  }

  function ReadValue(gattReady: bool, c: Client, handle: uint16): (r: Outcome)
    ensures !gattReady <==> r == NotInitialized
    ensures gattReady ==> r == Done(c, Some(Call.ReadValue(handle)))
  {
    Guarded(gattReady, c, Call.ReadValue(handle))
  }

  function ReadLongValue(gattReady: bool, c: Client, handle: uint16, offset: uint16): (r: Outcome)
    ensures !gattReady <==> r == NotInitialized
    ensures gattReady ==> r == Done(c, Some(Call.ReadLongValue(handle, offset)))
  {
    Guarded(gattReady, c, Call.ReadLongValue(handle, offset))
  }

  function WriteLongValue(gattReady: bool, c: Client, reliable: bool, handle: uint16, offset: uint16, value: seq<uint8>): (r: Outcome)
    ensures !gattReady <==> r == NotInitialized
    ensures gattReady ==> r == Done(c, Some(Call.WriteLongValue(reliable, handle, offset, value)))
  {
    Guarded(gattReady, c, Call.WriteLongValue(reliable, handle, offset, value))
  }

  /**
   * `write_prepare`: refused, with nothing changed, unless `id` is the active
   * session id; otherwise the id the library returns (`returned`, 0 on
   * failure) becomes the active one.
   */
  function WritePrepare(gattReady: bool, c: Client, id: uint32, handle: uint16, offset: uint16, value: seq<uint8>, returned: uint32): (r: Outcome)
    ensures !gattReady <==> r == NotInitialized
    ensures gattReady && id != c.session ==> r == Done(c, None)
    ensures gattReady && id == c.session ==> r == Done(c.(session := returned), Some(PrepareWrite(id, handle, offset, value)))
  {
    if !gattReady then NotInitialized
    else if c.session != id then Done(c, None)
    else Done(c.(session := returned), Some(PrepareWrite(id, handle, offset, value)))
  }

  /**
   * `write_execute`: commits (`execute`) or cancels the given session, with
   * no check against the active id, and then clears the active id.
   */
  function WriteExecute(gattReady: bool, c: Client, sessionId: uint32, execute: bool): (r: Outcome)
    ensures !gattReady <==> r == NotInitialized
    ensures gattReady ==> r.client == c.(session := 0)
    ensures gattReady ==> r.issued == Some(if execute then Call.WriteExecute(sessionId) else Cancel(sessionId))
  {
    if !gattReady then NotInitialized
    else Done(c.(session := 0), Some(if execute then Call.WriteExecute(sessionId) else Cancel(sessionId)))
  }

  function RegisterNotify(gattReady: bool, c: Client, handle: uint16): (r: Outcome)
    ensures !gattReady <==> r == NotInitialized
    ensures gattReady ==> r == Done(c, Some(Call.RegisterNotify(handle)))
  {
    Guarded(gattReady, c, Call.RegisterNotify(handle))
  }

  function UnregisterNotify(gattReady: bool, c: Client, id: uint32): (r: Outcome)
    ensures !gattReady <==> r == NotInitialized
    ensures gattReady ==> r == Done(c, Some(Call.UnregisterNotify(id)))
  {
    Guarded(gattReady, c, Call.UnregisterNotify(id))
  }

  /** `set_security`: levels outside 1..3 are refused without a library call. */
  function SetSecurity(gattReady: bool, c: Client, level: int): (r: Outcome)
    ensures !gattReady <==> r == NotInitialized
    ensures gattReady ==> r.client == c
    ensures gattReady ==> (r.issued.Some? <==> 1 <= level <= 3)
    ensures r.Done? && r.issued.Some? ==> r.issued.value == Call.SetSecurity(level)
  {
    if !gattReady then NotInitialized
    else if !ValidLevel(level) then Done(c, None)
    else Done(c, Some(Call.SetSecurity(level)))
  }

  function GetSecurity(gattReady: bool, c: Client): (r: Outcome)
    ensures !gattReady <==> r == NotInitialized
    ensures gattReady ==> r == Done(c, Some(Call.GetSecurity))
  {
    Guarded(gattReady, c, Call.GetSecurity)
  }

  /**
   * `write_value`: a write without response when `withoutResponse`, carrying
   * `signedWrite`; otherwise a write with response, which has no signing flag.
   */
  function WriteValue(gattReady: bool, c: Client, handle: uint16, value: seq<uint8>, withoutResponse: bool, signedWrite: bool): (r: Outcome)
    ensures !gattReady <==> r == NotInitialized
    ensures gattReady && withoutResponse ==> r == Done(c, Some(WriteWithoutResponse(handle, signedWrite, value)))
    ensures gattReady && !withoutResponse ==> r == Done(c, Some(Call.WriteValue(handle, value)))
  {
    if withoutResponse then Guarded(gattReady, c, WriteWithoutResponse(handle, signedWrite, value))
    else Guarded(gattReady, c, Call.WriteValue(handle, value))
  }

  /** The signing flag of a response-bearing write is ignored. */
  lemma ResponseWriteIgnoresSigned(gattReady: bool, c: Client, handle: uint16, value: seq<uint8>)
    ensures WriteValue(gattReady, c, handle, value, false, true) == WriteValue(gattReady, c, handle, value, false, false)
  {
  }

  /** `set_sign_key`: the only operation without the readiness guard. */
  function SetSignKey(gattReady: bool, c: Client, key: seq<uint8>): (r: Outcome)
    requires |key| == SignKeySize
    ensures r.Done? && r.client == c && r.issued == Some(SetLocalKey(key))
  {
    Done(c, Some(SetLocalKey(key)))
  }

  /**
   * A client that is not ready refuses every other operation but still
   * installs a signing key.
   */
  lemma SignKeyBypassesGuard(c: Client, handle: uint16, key: seq<uint8>)
    requires |key| == SignKeySize
    ensures ReadValue(false, c, handle) == NotInitialized && GetSecurity(false, c) == NotInitialized
    ensures SetSignKey(false, c, key) != NotInitialized
  {
  }

  /** `ready_cb`: only a successful discovery sets `ready_`. */
  function ReadyCb(c: Client, success: bool): (r: Client)
    ensures r.session == c.session
    ensures r.ready <==> c.ready || success
  {
    if success then c.(ready := true) else c
  }

  /**
   * The session guard is the only way into a session: since the active id
   * starts at 0, a prepare with any other id is refused by a fresh client.
   */
  lemma OnlyZeroOpensSession(id: uint32, handle: uint16, offset: uint16, value: seq<uint8>, returned: uint32)
    requires id != 0
    ensures WritePrepare(true, Initial, id, handle, offset, value, returned) == Done(Initial, None)
  {
  }

  /**
   * After any `write_execute` the active id is 0, so a prepare that still
   * quotes the old (nonzero) session id is refused.
   */
  lemma StalePrepareRefused(c: Client, sessionId: uint32, execute: bool, handle: uint16, offset: uint16, value: seq<uint8>, returned: uint32)
    requires sessionId != 0
    ensures var after := WriteExecute(true, c, sessionId, execute).client;
            WritePrepare(true, after, sessionId, handle, offset, value, returned) == Done(after, None)
  {
  }

  /**
   * The revisions differ on `write_execute`: this client commits or cancels
   * a session id that is not the active one, while the command-line tool
   * only ever issues the call for the active id.
   */
  lemma ExecuteGuardDiffers(c: Client, sessionId: uint32, execute: bool, cmd: string, strtol: Strtol)
    requires sessionId != c.session
    ensures WriteExecute(true, c, sessionId, execute).issued.value.id == sessionId
    ensures GattTool.WriteExecuteCmd(true, c.session, cmd, strtol).issued.Some? ==>
              GattTool.WriteExecuteCmd(true, c.session, cmd, strtol).issued.value.id != sessionId
  {
  }
}

=== FILE: ledevice.dfy ===
/**
 * `bluetooth::BluetoothLEDevice` (`src/bluetooth/bluetooth_le_device.cpp`),
 * the C++ revision that keeps the command-line tool's string commands.
 *
 * Its string commands (`read_multiple`, `write_value`, `write_long_value`,
 * `write_prepare`, `write_execute`) follow the tool line for line and are
 * the tool's definitions here.  The typed operations (`read_value`,
 * `register_notify`, `set_security`, ...) take their arguments already
 * converted and, unlike the tool, do not test a handle for 0.  When the
 * library reports the client not ready, every operation prints a message and
 * returns, which is `ready == false` below.
 */
module LeDevice {
  import opened Common
  import opened Tokenizer
  import opened GattCalls
  import GattTool

  /**
   * `ready_cb`: a successful discovery sets `ready_` (and wakes the waiting
   * constructor); a failed one returns without touching it.
   */
  function ReadyCb(ready: bool, success: bool): (r: bool)
    ensures success ==> r
    ensures !success ==> r == ready
  {
    if success then true else ready
  }

  /** `ready_` after a series of discovery callbacks. */
  function ReadyAfter(ready: bool, outcomes: seq<bool>): (r: bool)
    ensures ready ==> r
    decreases |outcomes|
  {
    if |outcomes| == 0 then ready else ReadyAfter(ReadyCb(ready, outcomes[0]), outcomes[1..])
  }

  /** Nothing sets `ready_` back to false: it is set exactly when some callback succeeded. */
  lemma {:induction false} ReadyAfterIff(ready: bool, outcomes: seq<bool>)
    ensures ReadyAfter(ready, outcomes) <==> ready || true in outcomes
    decreases |outcomes|
  {
    if |outcomes| > 0 {
      ReadyAfterIff(ReadyCb(ready, outcomes[0]), outcomes[1..]);
      assert outcomes == [outcomes[0]] + outcomes[1..];
    }
  }

  /** How the constructor's five-second wait for `ready_` ends. */
  datatype Construction = InitializedOk | DidNotInitialize

  /**
   * The constructor waits for `ready_`, which starts false; `outcomes` are
   * the discovery callbacks that arrive within the five seconds.
   */
  function Construct(outcomes: seq<bool>): (r: Construction)
    ensures r == InitializedOk <==> true in outcomes
  {
    ReadyAfterIff(false, outcomes);
    if ReadyAfter(false, outcomes) then InitializedOk else DidNotInitialize
  }

  /**
   * Failed discoveries alone, or none at all, make the constructor throw;
   * and a longer wait never loses a success already seen.
   */
  lemma ConstructKeepsSuccess(outcomes: seq<bool>, later: seq<bool>)
    ensures Construct(outcomes) == InitializedOk ==> Construct(outcomes + later) == InitializedOk
    ensures (forall i :: 0 <= i < |outcomes| ==> !outcomes[i]) ==> Construct(outcomes) == DidNotInitialize
  {
    if true in outcomes {
      var i :| 0 <= i < |outcomes| && outcomes[i];
      assert (outcomes + later)[i];
    }
  }

  /** `read_value(handle)`: passed to the library unchecked. */
  function ReadValue(ready: bool, handle: uint16): (r: Option<Call>)
    ensures r.Some? <==> ready
    ensures r.Some? ==> r.value.ReadValue? && r.value.handle == handle
  {
    if ready then Some(Call.ReadValue(handle)) else None
  }

  /** `read_long_value(handle, offset)`: passed to the library unchecked. */
  function ReadLongValue(ready: bool, handle: uint16, offset: uint16): (r: Option<Call>)
    ensures r.Some? <==> ready
    ensures r.Some? ==> r.value.ReadLongValue? && r.value.handle == handle && r.value.offset == offset
  {
    if ready then Some(Call.ReadLongValue(handle, offset)) else None
  }

  /** `register_notify(value_handle)`: passed to the library unchecked, 0 included. */
  function RegisterNotify(ready: bool, handle: uint16): (r: Option<Call>)
    ensures r.Some? <==> ready
    ensures r.Some? ==> r.value.RegisterNotify? && r.value.handle == handle
  {
    if ready then Some(Call.RegisterNotify(handle)) else None
  }

  /**
   * Unlike the tool's `register-notify`, the typed call lets handle 0 through
   * to the library.
   */
  lemma RegisterNotifyAcceptsZero(strtol: Strtol)
    ensures RegisterNotify(true, 0) == Some(Call.RegisterNotify(0))
    ensures forall cmd :: GattTool.RegisterNotifyCmd(true, cmd, strtol).Some? ==> GattTool.RegisterNotifyCmd(true, cmd, strtol).value.handle != 0
  {
  }

  /** `unregister_notify(id)`: passed to the library unchecked, 0 included. */
  function UnregisterNotify(ready: bool, id: uint32): (r: Option<Call>)
    ensures r.Some? <==> ready
    ensures r.Some? ==> r.value.UnregisterNotify? && r.value.id == id
  {
    if ready then Some(Call.UnregisterNotify(id)) else None
  }

  /** `get_security()`. */
  function GetSecurity(ready: bool): (r: Option<Call>)
    ensures r.Some? <==> ready
    ensures r.Some? ==> r.value.GetSecurity?
  {
    if ready then Some(Call.GetSecurity) else None
  }

  /**
   * `set_sign_key(key)`: installs the 16-byte key with `local_counter`,
   * without asking whether the client is ready.
   */
  function SetSignKey(key: seq<uint8>): (r: Call)
    requires |key| == SignKeySize
    ensures r.SetLocalKey? && r.key == key
  {
    SetLocalKey(key)
  }

  /** Of the typed operations, only `set_sign_key` reaches the library when the client is not ready. */
  lemma OnlySignKeyIgnoresReady(handle: uint16, offset: uint16, id: uint32, level: int, key: seq<uint8>)
    requires |key| == SignKeySize
    ensures ReadValue(false, handle).None? && ReadLongValue(false, handle, offset).None?
    ensures RegisterNotify(false, handle).None? && UnregisterNotify(false, id).None?
    ensures SetSecurity(false, level).None? && GetSecurity(false).None?
    ensures SetSignKey(key) == SetLocalKey(key)
  {
  }

  /** `set_security(level)`: levels outside 1..3 are refused before the library is called. */
  function SetSecurity(ready: bool, level: int): (r: Option<Call>)
    ensures r.Some? <==> ready && 1 <= level <= 3
    ensures r.Some? ==> r.value == Call.SetSecurity(level)
  {
    if !ready || !ValidLevel(level) then None else Some(Call.SetSecurity(level))
  }

  /**
   * `read_multiple`: the tool's command, with the same `sizeof(argv)`
   * overrun; this is the command with the element count corrected.
   */
  function ReadMultiple(ready: bool, cmd: string, strtol: Strtol): (r: Option<Call>)
    ensures r.Some? <==> ready && 2 <= |Tokens(cmd)| < GattTool.ReadMultipleSlots && HandleArgs(Tokens(cmd), strtol).Some?
    ensures r.Some? ==> r.value.ReadMultiple? && r.value.handles == HandleArgs(Tokens(cmd), strtol).value
                        && (r.value.count as int - |Tokens(cmd)|) % 0x100 == 0
                        && forall i :: 0 <= i < |r.value.handles| ==> r.value.handles[i] != 0
  {
    GattTool.ReadMultipleCmd(ready, cmd, strtol)
  }

  /**
   * `read_multiple` as written: `parse_args(cmd_str, sizeof(argv), argv,
   * &argc)` with `char * argv[512]`, so up to `512 * pointerSize` tokens
   * pass the count check, and some of them overrun `argv`.
   */
  function ReadMultipleAsWritten(ready: bool, cmd: string, strtol: Strtol, pointerSize: nat): (r: Option<Call>)
    requires pointerSize >= 1
    ensures r.Some? <==> ready && 2 <= |Tokens(cmd)| <= GattTool.ReadMultipleExpectedAsWritten(pointerSize)
                         && HandleArgs(Tokens(cmd), strtol).Some?
    ensures r.Some? ==> r.value.ReadMultiple? && r.value.handles == HandleArgs(Tokens(cmd), strtol).value
                        && (r.value.count as int - |Tokens(cmd)|) % 0x100 == 0
    ensures !CallerSafe(GattTool.ReadMultipleExpectedAsWritten(pointerSize), 0, GattTool.ReadMultipleSlots)
  {
    GattTool.ReadMultipleOverruns(pointerSize);
    GattTool.ReadMultipleCmdAsWritten(ready, cmd, strtol, pointerSize)
  }

  /**
   * `write_value`: more than 513 tokens are "Too many arguments"; after
   * `getopt_long` ("+ws"), a nonzero handle and base-16 bytes of any length.
   * `-w` picks a write without response, which alone carries `-s`.
   */
  function WriteValue(ready: bool, cmd: string, getopt: Getopt, strtol: Strtol): (r: Option<Call>)
    requires OperandsFromTokens(getopt)
    ensures |Tokens(cmd)| > GattTool.WriteExpected - 1 ==> r.None?
    ensures r.Some? <==> (ready && |Tokens(cmd)| <= GattTool.WriteExpected - 1 && getopt(Tokens(cmd)).Some?
                          && var o := getopt(Tokens(cmd)).value;
                             |o.operands| >= 1 && HandleArg(o.operands[0], strtol).Some?
                             && ValueBytes(o.operands[1..], Base16, strtol).Some?)
    ensures r.Some? ==> var o := getopt(Tokens(cmd)).value;
                        && (r.value.WriteWithoutResponse? || r.value.WriteValue?)
                        && (r.value.WriteWithoutResponse? <==> o.withoutResponse)
                        && (o.withoutResponse ==> r.value.signedWrite == o.signedWrite)
                        && r.value.handle == HandleArg(o.operands[0], strtol).value
                        && r.value.value == ValueBytes(o.operands[1..], Base16, strtol).value
  {
    GattTool.WriteValueCmd(ready, cmd, getopt, strtol)
  }

  /**
   * `write_long_value`: more than 513 tokens are refused; after
   * `getopt_long` ("+r"), a nonzero handle, an offset without `ERANGE`, and
   * value tokens of exactly two characters.
   */
  function WriteLongValue(ready: bool, cmd: string, getopt: Getopt, strtol: Strtol): (r: Option<Call>)
    requires OperandsFromTokens(getopt)
    ensures |Tokens(cmd)| > GattTool.WriteExpected - 1 ==> r.None?
    ensures r.Some? <==> (ready && |Tokens(cmd)| <= GattTool.WriteExpected - 1 && getopt(Tokens(cmd)).Some?
                          && var o := getopt(Tokens(cmd)).value;
                             |o.operands| >= 2 && HandleArg(o.operands[0], strtol).Some?
                             && OffsetArg(o.operands[1], true, strtol).Some?
                             && ValueBytes(o.operands[2..], TwoCharacters, strtol).Some?)
    ensures r.Some? ==> var o := getopt(Tokens(cmd)).value;
                        && r.value == Call.WriteLongValue(o.reliable, HandleArg(o.operands[0], strtol).value,
                                                          OffsetArg(o.operands[1], true, strtol).value,
                                                          ValueBytes(o.operands[2..], TwoCharacters, strtol).value)
                        && r.value.handle != 0
                        && |r.value.value| == |o.operands| - 2
                        && forall i :: 2 <= i < |o.operands| ==> |o.operands[i]| == 2
  {
    var r := GattTool.WriteLongValueCmd(ready, cmd, getopt, strtol);
    if r.Some? then
      var o := getopt(Tokens(cmd)).value;
      assert forall i :: 2 <= i < |o.operands| ==> o.operands[2..][i - 2] == o.operands[i];
      r
    else r
  }

  /**
   * `write_prepare`: more than 514 tokens are refused; after `getopt_long`
   * ("s:"), a prepare whose `-s` id is not the active one is refused with the
   * session unchanged, and an accepted one makes the library's returned id
   * the active one.
   */
  function WritePrepare(ready: bool, session: uint32, cmd: string, getopt: Getopt, strtol: Strtol, returned: uint32): (r: GattTool.Step)
    requires OperandsFromTokens(getopt)
    ensures r.issued.None? ==> r.session == session
    ensures |Tokens(cmd)| > GattTool.WriteExpected ==> r == GattTool.Step(session, None)
    ensures r.issued.Some? <==> (ready && |Tokens(cmd)| <= GattTool.WriteExpected && getopt(Tokens(cmd)).Some?
                                 && var o := getopt(Tokens(cmd)).value;
                                    o.sessionId == session && |o.operands| >= 3
                                    && HandleArg(o.operands[0], strtol).Some?
                                    && OffsetArg(o.operands[1], true, strtol).Some?
                                    && ValueBytes(o.operands[2..], TwoCharacters, strtol).Some?)
    ensures r.issued.Some? ==> var o := getopt(Tokens(cmd)).value;
                               r.session == returned
                               && r.issued.value == PrepareWrite(session, HandleArg(o.operands[0], strtol).value,
                                                                 OffsetArg(o.operands[1], true, strtol).value,
                                                                 ValueBytes(o.operands[2..], TwoCharacters, strtol).value)
  {
    GattTool.WritePrepareCmd(ready, session, cmd, getopt, strtol, returned)
  }

  /**
   * `write_execute`: refused unless the first argument is the active session
   * id; otherwise commits when the second is nonzero, cancels when it is
   * zero, and in both cases resets the active id to 0.
   */
  function WriteExecute(ready: bool, session: uint32, cmd: string, strtol: Strtol): (r: GattTool.Step)
    ensures r.issued.None? ==> r.session == session
    ensures r.issued.Some? ==> r.session == 0
    ensures r.issued.Some? <==> ready && 2 <= |Tokens(cmd)| <= 514 && GattTool.SessionArg(Tokens(cmd)[0], strtol) == Some(session)
                                && strtol(Tokens(cmd)[1], 0).Some?
    ensures r.issued.Some? ==> r.issued.value == if strtol(Tokens(cmd)[1], 0).value.value != 0 then Call.WriteExecute(session) else Cancel(session)
  {
    GattTool.WriteExecuteCmd(ready, session, cmd, strtol)
  }

  /**
   * `write_long_value` and `write_prepare` read value tokens two characters
   * at a time while `write_value` reads them in base 16 with no length rule:
   * the token "001" is one valid byte for `write_value` and rejects a
   * `write_prepare`.
   */
  lemma ValueTokenRules(strtol: Strtol, session: uint32, returned: uint32)
    requires strtol("001", 16) == Some(Conversion(1, false))
    requires strtol("0x10", 0) == Some(Conversion(16, false))
    ensures GattTool.WriteValueOperands(true, false, false, ["0x10", "001"], strtol) == Some(Call.WriteValue(16, [1]))
    ensures GattTool.WritePrepareOperands(true, session, session, ["0x10", "0x10", "001"], strtol, returned).issued.None?
  {
    assert ["0x10", "001"][1..] == ["001"];
    ByteRulesDiffer(strtol);
    assert ValueBytes(["001"], Base16, strtol) == Some([1]) by {
      assert ["001"][1..] == [];
      assert ValueBytes(["001"][1..], Base16, strtol) == Some([]);
      assert ["001"][0] == "001";
      assert [1] + [] == [1];
    }
  }
}

=== FILE: mainloop.dfy ===
/**
 * The BlueZ event loop's registration table (`lib/bluez/mainloop.c`): a
 * fixed table of 128 slots, indexed by file descriptor, each empty or
 * holding the callback, destroy hook and user data registered for that
 * descriptor, plus the `epoll_terminate` and `exit_status` flags.
 *
 * `epoll_ctl`, `malloc` and `timerfd_settime` are not part of this model:
 * what they returned is a parameter of the operation that calls them.
 * Callbacks, destroy hooks and user data are opaque pointers, here numbers;
 * a destroy hook that runs is recorded as a `HookCall`.
 */
module Mainloop {
  import opened Common

  /** `MAX_MAINLOOP_ENTRIES`. */
  const MaxEntries: nat := 128

  /** The Linux `errno` values the table reports, negated by the callers. */
  const EINVAL: int := 22
  const ENOMEM: int := 12
  const ENXIO: int := 6

  const ExitSuccessStatus: int := 0
  const ExitFailureStatus: int := 1

  /** An opaque function or data pointer (a callback, a destroy hook, `user_data`). */
  type Pointer = nat

  /** `struct mainloop_data`: what one slot holds. */
  datatype Entry = Entry(fd: int, events: uint32, callback: Pointer, destroy: Option<Pointer>, userData: Pointer)

  /** The three statics: `mainloop_list`, `epoll_terminate`, `exit_status`. */
  datatype Loop = Loop(slots: seq<Option<Entry>>, terminate: bool, exitStatus: int)

  ghost predicate Valid(s: Loop)
  {
    |s.slots| == MaxEntries
  }

  /** The statics as the program starts: zero-initialised, so every pointer is NULL. */
  function EmptySlots(): (slots: seq<Option<Entry>>)
    ensures |slots| == MaxEntries
    ensures forall i :: 0 <= i < |slots| ==> slots[i].None?
  {
    seq(MaxEntries, _ => None)
  }

  /** A destroy hook that ran, for the entry of slot `slot`. */
  datatype HookCall = HookCall(slot: nat, destroy: Pointer, userData: Pointer)

  /** A table operation's new state and its return value (0, or a negative error). */
  datatype Reply = Reply(state: Loop, ret: int)

  /** `mainloop_init`: every slot empty and the loop not terminating; the exit status is kept. */
  function Init(s: Loop): (r: Loop)
    ensures Valid(r)
    ensures forall i :: 0 <= i < MaxEntries ==> r.slots[i].None?
    ensures !r.terminate && r.exitStatus == s.exitStatus
  {
    Loop(EmptySlots(), false, s.exitStatus)
  }

  /** `mainloop_quit`. */
  function Quit(s: Loop): (r: Loop)
    ensures r.terminate
    ensures r.slots == s.slots && r.exitStatus == s.exitStatus
  {
    s.(terminate := true)
  }

  /** `mainloop_exit_success`. */
  function ExitSuccess(s: Loop): (r: Loop)
    ensures r.terminate && r.exitStatus == ExitSuccessStatus
    ensures r.slots == s.slots
  {
    s.(terminate := true, exitStatus := ExitSuccessStatus)
  }

  /** `mainloop_exit_failure`. */
  function ExitFailure(s: Loop): (r: Loop)
    ensures r.terminate && r.exitStatus == ExitFailureStatus
    ensures r.slots == s.slots
  {
    s.(terminate := true, exitStatus := ExitFailureStatus)
  }

  /** Each of the three stop requests has the same effect however often it is made. */
  lemma StopRequestsIdempotent(s: Loop)
    ensures Quit(Quit(s)) == Quit(s)
    ensures ExitSuccess(ExitSuccess(s)) == ExitSuccess(s)
    ensures ExitFailure(ExitFailure(s)) == ExitFailure(s)
    ensures ExitFailure(ExitSuccess(s)) == ExitFailure(s) && ExitSuccess(ExitFailure(s)) == ExitSuccess(s)
    ensures Quit(ExitFailure(s)) == ExitFailure(s)
  {
  }

  predicate InRange(fd: int)
  {
    0 <= fd <= MaxEntries - 1
  }

  /**
   * `mainloop_add_fd`.  `callback` is `None` for a NULL callback;
   * `mallocOk` is whether `malloc` succeeded and `epollAdd` what
   * `epoll_ctl(EPOLL_CTL_ADD)` returned.  The slot is overwritten without
   * looking at what it held.
   */
  function AddFd(s: Loop, fd: int, events: uint32, callback: Option<Pointer>, userData: Pointer, destroy: Option<Pointer>,
                 mallocOk: bool, epollAdd: int): (r: Reply)
    requires Valid(s)
    ensures Valid(r.state)
    ensures !InRange(fd) || callback.None? ==> r == Reply(s, -EINVAL)
    ensures InRange(fd) && callback.Some? && !mallocOk ==> r == Reply(s, -ENOMEM)
    ensures r.ret != 0 ==> r.state == s
    ensures r.ret == 0 <==> InRange(fd) && callback.Some? && mallocOk && epollAdd >= 0
    ensures r.ret == 0 ==> r.state == s.(slots := s.slots[fd := Some(Entry(fd, events, callback.value, destroy, userData))])
  {
    if !InRange(fd) || callback.None? then Reply(s, -EINVAL)
    else if !mallocOk then Reply(s, -ENOMEM)
    else if epollAdd < 0 then Reply(s, epollAdd)
    else Reply(s.(slots := s.slots[fd := Some(Entry(fd, events, callback.value, destroy, userData))]), 0)
  }

  /**
   * The table itself does not refuse an occupied slot: when `epoll_ctl`
   * accepts, the old entry is replaced, and its destroy hook never runs.
   */
  lemma AddFdOverwrites(s: Loop, fd: int, events: uint32, callback: Pointer, userData: Pointer, destroy: Option<Pointer>)
    requires Valid(s) && InRange(fd) && s.slots[fd].Some?
    ensures var r := AddFd(s, fd, events, Some(callback), userData, destroy, true, 0);
            r.ret == 0 && r.state.slots[fd] == Some(Entry(fd, events, callback, destroy, userData))
  {
  }

  /**
   * `mainloop_modify_fd`: `epollMod` is what `epoll_ctl(EPOLL_CTL_MOD)`
   * returned.  On success only the entry's `events` changes.
   */
  function ModifyFd(s: Loop, fd: int, events: uint32, epollMod: int): (r: Reply)
    requires Valid(s)
    ensures Valid(r.state)
    ensures !InRange(fd) ==> r == Reply(s, -EINVAL)
    ensures InRange(fd) && s.slots[fd].None? ==> r == Reply(s, -ENXIO)
    ensures r.ret != 0 ==> r.state == s
    ensures r.ret == 0 <==> InRange(fd) && s.slots[fd].Some? && epollMod >= 0
    ensures r.ret == 0 ==> r.state == s.(slots := s.slots[fd := Some(s.slots[fd].value.(events := events))])
  {
    if !InRange(fd) then Reply(s, -EINVAL)
    else if s.slots[fd].None? then Reply(s, -ENXIO)
    else if epollMod < 0 then Reply(s, epollMod)
    else Reply(s.(slots := s.slots[fd := Some(s.slots[fd].value.(events := events))]), 0)
  }

  /** `mainloop_remove_fd`'s outcome: the reply and the destroy hook that ran, if any. */
  datatype Removal = Removal(reply: Reply, hook: Option<HookCall>)

  /** The destroy call due for slot `i`, if it holds an entry with a destroy hook. */
  function HookOf(i: nat, slot: Option<Entry>): (h: Option<HookCall>)
    ensures h.Some? <==> slot.Some? && slot.value.destroy.Some?
    ensures h.Some? ==> h.value == HookCall(i, slot.value.destroy.value, slot.value.userData)
  {
    if slot.Some? && slot.value.destroy.Some? then Some(HookCall(i, slot.value.destroy.value, slot.value.userData)) else None
  }

  /**
   * `mainloop_remove_fd`: `epollDel` is what `epoll_ctl(EPOLL_CTL_DEL)`
   * returned, and is also the function's result; the slot is emptied and the
   * destroy hook runs whether or not it failed.
   */
  function RemoveFd(s: Loop, fd: int, epollDel: int): (r: Removal)
    requires Valid(s)
    ensures Valid(r.reply.state)
    ensures !InRange(fd) ==> r == Removal(Reply(s, -EINVAL), None)
    ensures InRange(fd) && s.slots[fd].None? ==> r == Removal(Reply(s, -ENXIO), None)
    ensures InRange(fd) && s.slots[fd].Some? ==>
              && r.reply == Reply(s.(slots := s.slots[fd := None]), epollDel)
              && r.hook == HookOf(fd, s.slots[fd])
  {
    if !InRange(fd) then Removal(Reply(s, -EINVAL), None)
    else if s.slots[fd].None? then Removal(Reply(s, -ENXIO), None)
    else Removal(Reply(s.(slots := s.slots[fd := None]), epollDel), HookOf(fd, s.slots[fd]))
  }

  /** Adding and then removing a descriptor empties its slot again and runs the hook just registered. */
  lemma AddThenRemove(s: Loop, fd: int, events: uint32, callback: Pointer, userData: Pointer, destroy: Option<Pointer>, epollDel: int)
    requires Valid(s) && InRange(fd) && s.slots[fd].None?
    ensures var added := AddFd(s, fd, events, Some(callback), userData, destroy, true, 0).state;
            var removed := RemoveFd(added, fd, epollDel);
            && removed.reply.state == s
            && (removed.hook.Some? <==> destroy.Some?)
            && (destroy.Some? ==> removed.hook == Some(HookCall(fd, destroy.value, userData)))
  {
    var added := AddFd(s, fd, events, Some(callback), userData, destroy, true, 0).state;
    assert added.slots[fd := None] == s.slots;
  }

  /** The destroy calls the shutdown drain makes for `slots`, in slot order. */
  function Destroys(slots: seq<Option<Entry>>): (calls: seq<HookCall>)
    decreases |slots|
  {
    if |slots| == 0 then []
    else
      var last := |slots| - 1;
      Destroys(slots[..last]) + (if HookOf(last, slots[last]).Some? then [HookOf(last, slots[last]).value] else [])
  }

  /**
   * Every destroy call names a slot below `|slots|`, the slots named are
   * strictly increasing, and slot `i` is named exactly when it holds an
   * entry with a destroy hook, with that hook and its user data: each hook
   * runs exactly once.
   */
  lemma {:induction false} DestroysExactlyOnce(slots: seq<Option<Entry>>)
    ensures forall j :: 0 <= j < |Destroys(slots)| ==> Destroys(slots)[j].slot < |slots|
    ensures forall j, k :: 0 <= j < k < |Destroys(slots)| ==> Destroys(slots)[j].slot < Destroys(slots)[k].slot
    ensures forall i :: 0 <= i < |slots| ==>
              ((exists j :: 0 <= j < |Destroys(slots)| && Destroys(slots)[j].slot == i) <==> HookOf(i, slots[i]).Some?)
    ensures forall j :: 0 <= j < |Destroys(slots)| ==> Some(Destroys(slots)[j]) == HookOf(Destroys(slots)[j].slot, slots[Destroys(slots)[j].slot])
    decreases |slots|
  {
    if |slots| > 0 {
      var last := |slots| - 1;
      var front := slots[..last];
      DestroysExactlyOnce(front);
      var d := Destroys(slots);
      var df := Destroys(front);
      assert d == df + (if HookOf(last, slots[last]).Some? then [HookOf(last, slots[last]).value] else []);
      forall j | 0 <= j < |df|
        ensures d[j] == df[j] && df[j].slot < last && slots[df[j].slot] == front[df[j].slot]
      {
      }
      forall i | 0 <= i < |slots|
        ensures (exists j :: 0 <= j < |d| && d[j].slot == i) <==> HookOf(i, slots[i]).Some?
      {
        if i < last {
          assert slots[i] == front[i];
          if exists j :: 0 <= j < |d| && d[j].slot == i {
            var j :| 0 <= j < |d| && d[j].slot == i;
            assert j < |df|;
            assert df[j].slot == i;
          }
          if HookOf(i, slots[i]).Some? {
            var j :| 0 <= j < |df| && df[j].slot == i;
            assert d[j].slot == i;
          }
        } else {
          if HookOf(i, slots[i]).Some? {
            assert d[|df|].slot == i;
          }
        }
      }
    }
  }

  /**
   * The drain at the end of `mainloop_run`: every slot is emptied in
   * ascending order, each entry is deleted from epoll (result ignored) and
   * its destroy hook, if any, runs.
   */
  method Drain(s: Loop) returns (r: Loop, calls: seq<HookCall>)
    requires Valid(s)
    ensures Valid(r)
    ensures forall i :: 0 <= i < MaxEntries ==> r.slots[i].None?
    ensures r.terminate == s.terminate && r.exitStatus == s.exitStatus
    ensures calls == Destroys(s.slots)
  {
    var slots := s.slots;
    calls := [];
    var i := 0;
    while i < MaxEntries
      invariant 0 <= i <= MaxEntries
      invariant |slots| == MaxEntries
      invariant forall k :: 0 <= k < i ==> slots[k].None?
      invariant slots[i..] == s.slots[i..]
      invariant calls == Destroys(s.slots[..i])
    {
      var data := slots[i];
      slots := slots[i := None];
      assert s.slots[..i + 1][..i] == s.slots[..i];
      assert s.slots[i] == s.slots[i..][0] == data;
      var hook := HookOf(i, data);
      if hook.Some? {
        calls := calls + [hook.value];
      }
      i := i + 1;
    }
    assert s.slots[..MaxEntries] == s.slots;
    r := s.(slots := slots);
  }

  /** After the drain every entry's destroy hook has run exactly once, and nothing else ran. */
  method DrainRunsEachHookOnce(s: Loop) returns (calls: seq<HookCall>)
    requires Valid(s)
    ensures forall i :: 0 <= i < MaxEntries ==>
              ((exists j :: 0 <= j < |calls| && calls[j].slot == i) <==> s.slots[i].Some? && s.slots[i].value.destroy.Some?)
    ensures forall j, k :: 0 <= j < k < |calls| ==> calls[j].slot != calls[k].slot
  {
    var r;
    r, calls := Drain(s);
    DestroysExactlyOnce(s.slots);
  }

  /** What a callback does to the loop's flags while events are dispatched. */
  datatype Control = CallQuit | CallExitSuccess | CallExitFailure

  function Apply(s: Loop, c: Control): (r: Loop)
    ensures r.slots == s.slots && r.terminate
  {
    match c
    case CallQuit => Quit(s)
    case CallExitSuccess => ExitSuccess(s)
    case CallExitFailure => ExitFailure(s)
  }

  function ApplyAll(s: Loop, cs: seq<Control>): (r: Loop)
    ensures r.slots == s.slots
    ensures |cs| > 0 ==> r.terminate
    ensures |cs| == 0 ==> r == s
    decreases |cs|
  {
    if |cs| == 0 then s else ApplyAll(Apply(s, cs[0]), cs[1..])
  }

  predicate IsExit(c: Control)
  {
    c == CallExitSuccess || c == CallExitFailure
  }

  function ExitStatusOf(c: Control): int
  {
    if c == CallExitFailure then ExitFailureStatus else ExitSuccessStatus
  }

  /**
   * The exit status after the requests `cs`: the last `exit_*` decides, and
   * with none the status stays `start` (`quit` never touches it).
   */
  lemma ApplyAllStatus(s: Loop, cs: seq<Control>)
    ensures (forall i :: 0 <= i < |cs| ==> !IsExit(cs[i])) ==> ApplyAll(s, cs).exitStatus == s.exitStatus
    ensures forall i :: 0 <= i < |cs| && IsExit(cs[i]) && (forall k :: i < k < |cs| ==> !IsExit(cs[k])) ==>
              ApplyAll(s, cs).exitStatus == ExitStatusOf(cs[i])
  {
    if forall i :: 0 <= i < |cs| ==> !IsExit(cs[i]) {
      ApplyAllNoExit(s, cs);
    }
    forall i | 0 <= i < |cs| && IsExit(cs[i]) && (forall k :: i < k < |cs| ==> !IsExit(cs[k]))
      ensures ApplyAll(s, cs).exitStatus == ExitStatusOf(cs[i])
    {
      ApplyAllLastExit(s, cs, i);
    }
  }

  /** Requests without an `exit_*` leave the status alone. */
  lemma {:induction false} ApplyAllNoExit(s: Loop, cs: seq<Control>)
    requires forall i :: 0 <= i < |cs| ==> !IsExit(cs[i])
    ensures ApplyAll(s, cs).exitStatus == s.exitStatus
    decreases |cs|
  {
    if |cs| > 0 {
      var rest := cs[1..];
      assert forall k :: 0 <= k < |rest| ==> rest[k] == cs[k + 1];
      ApplyAllNoExit(Apply(s, cs[0]), rest);
    }
  }

  /** The last `exit_*` among the requests decides the status. */
  lemma {:induction false} ApplyAllLastExit(s: Loop, cs: seq<Control>, i: nat)
    requires i < |cs| && IsExit(cs[i]) && forall k :: i < k < |cs| ==> !IsExit(cs[k])
    ensures ApplyAll(s, cs).exitStatus == ExitStatusOf(cs[i])
    decreases |cs|
  {
    var rest := cs[1..];
    assert forall k :: 0 <= k < |rest| ==> rest[k] == cs[k + 1];
    if i > 0 {
      ApplyAllLastExit(Apply(s, cs[0]), rest, i - 1);
    } else {
      ApplyAllNoExit(Apply(s, cs[0]), rest);
    }
  }

  /** What `mainloop_run` returns and leaves behind. */
  datatype RunResult = RunResult(state: Loop, status: int, destroyed: seq<HookCall>)

  /**
   * `mainloop_run` without a signal handler: the status is reset to success,
   * the callbacks' stop requests `requests` are applied while the loop has
   * not been told to stop (the events themselves are not modelled), and the
   * table is drained.  `epoll_terminate` is not cleared on entry.  With the
   * flag clear and no stop request the source waits in `epoll_wait` forever
   * and never returns, so that case has no result.
   */
  method Run(s: Loop, requests: seq<Control>) returns (r: RunResult)
    requires Valid(s)
    requires s.terminate || |requests| > 0
    ensures s.terminate || (forall i :: 0 <= i < |requests| ==> !IsExit(requests[i])) ==> r.status == ExitSuccessStatus
    ensures forall i :: !s.terminate && 0 <= i < |requests| && IsExit(requests[i]) && (forall k :: i < k < |requests| ==> !IsExit(requests[k])) ==>
              r.status == ExitStatusOf(requests[i])
    ensures Valid(r.state) && r.status == r.state.exitStatus
    ensures forall i :: 0 <= i < MaxEntries ==> r.state.slots[i].None?
    ensures r.state.terminate
    ensures r.destroyed == Destroys(s.slots)
  {
    var t := s.(exitStatus := ExitSuccessStatus);
    if !t.terminate {
      ApplyAllStatus(t, requests);
      t := ApplyAll(t, requests);
    }
    var drained, calls := Drain(t);
    r := RunResult(drained, drained.exitStatus, calls);
  }

  /**
   * Since `run` never clears the terminate flag, a second `run` without an
   * intervening `init` dispatches nothing and returns success.
   */
  method RunTwice(s: Loop, first: seq<Control>, second: seq<Control>) returns (status: int)
    requires Valid(s) && |first| > 0
    ensures status == ExitSuccessStatus
  {
    var r1 := Run(s, first);
    var r2 := Run(r1.state, second);
    status := r2.status;
  }

  /** `struct itimerspec`: a zero interval and the first expiry, in seconds and nanoseconds. */
  datatype TimerSpec = TimerSpec(intervalSec: int, intervalNsec: int, valueSec: int, valueNsec: int)

  /** The first expiry, in nanoseconds. */
  function ExpiryNanos(t: TimerSpec): int
  {
    t.valueSec * 1_000_000_000 + t.valueNsec
  }

  /**
   * `timeout_set` as written: whole seconds, and the remaining milliseconds
   * multiplied by 1000 as nanoseconds.  `unsigned int` arithmetic cannot
   * wrap here, as the remainder is below 1000.
   */
  function TimeoutSetAsWritten(msec: uint32): (t: TimerSpec)
    ensures t.intervalSec == 0 && t.intervalNsec == 0
    ensures t.valueSec == msec / 1000
    ensures 0 <= t.valueNsec < 1_000_000
  {
    var sec := msec / 1000;
    TimerSpec(0, 0, sec, (msec - sec * 1000) * 1000)
  }

  /**
   * As written, the fraction of a second is a thousand times too short: the
   * expiry is whole seconds plus the leftover milliseconds as microseconds,
   * so a 1 ms timeout expires after 1 µs.
   */
  lemma TimeoutSetAsWrittenScale(msec: uint32)
    ensures TimeoutSetAsWritten(msec).valueSec == msec / 1000
    ensures ExpiryNanos(TimeoutSetAsWritten(msec)) == (msec / 1000) * 1_000_000_000 + (msec % 1000) * 1000
    ensures msec % 1000 != 0 ==> ExpiryNanos(TimeoutSetAsWritten(msec)) < msec * 1_000_000
    ensures ExpiryNanos(TimeoutSetAsWritten(1)) == 1000
  {
  }

  /** `timeout_set` with the nanoseconds meant: the remaining milliseconds times 1,000,000. */
  function TimeoutSet(msec: uint32): (t: TimerSpec)
    ensures t.intervalSec == 0 && t.intervalNsec == 0
    ensures ExpiryNanos(t) == msec * 1_000_000
    ensures 0 <= t.valueNsec < 1_000_000_000
  {
    var sec := msec / 1000;
    TimerSpec(0, 0, sec, (msec - sec * 1000) * 1_000_000)
  }

  /**
   * The correction touches only the nanosecond field, scaling it by exactly
   * the missing factor of 1000; the whole seconds are those `timeout_set`
   * already computes.
   */
  lemma TimeoutSetExact(msec: uint32)
    ensures TimeoutSet(msec).valueSec == TimeoutSetAsWritten(msec).valueSec == msec / 1000
    ensures TimeoutSet(msec).valueNsec == TimeoutSetAsWritten(msec).valueNsec * 1000
    ensures ExpiryNanos(TimeoutSet(msec)) - ExpiryNanos(TimeoutSetAsWritten(msec)) == (msec % 1000) * 999_000
  {
  }
}

=== FILE: minipro.dfy ===
/**
 * `MiniPro` (`src/minipro/minipro.cpp`): the scooter-facing operations of
 * the typed GATT client.  Each one builds a packet or a two-byte value and
 * hands it to `write_value`.
 *
 * `minipro.cpp` never assigns `tx_service_handle_` or
 * `config_service_handle_`, so the handles are parameters (`Handles`).
 * `exit_remote_control_mode.hpp:30` declares the `ExitRemoteControlMode`
 * constructor, and this model has no definition of it; its packet is a
 * parameter too.
 */
module MiniPro {
  import opened Common
  import opened Packet
  import opened MiniProPackets
  import opened GattCalls
  import LeClient

  /** `tx_service_handle_` and `config_service_handle_`. */
  datatype Handles = Handles(tx: uint16, config: uint16)

  /**
   * `send_packet`: the bytes of `get_bytes`, to the transmit handle, as a
   * write without response and unsigned (the `signed_write` default).
   */
  function SendPacket(gattReady: bool, c: LeClient.Client, h: Handles, p: Packet, host: Endianness): (r: LeClient.Outcome)
    ensures !gattReady <==> r == LeClient.NotInitialized
    ensures gattReady ==> r == LeClient.Done(c, Some(WriteWithoutResponse(h.tx, false, GetBytes(p, host).bytes)))
  {
    LeClient.WriteValue(gattReady, c, h.tx, GetBytes(p, host).bytes, true, false)
  }

  /**
   * `write_config_value`: the memory image of `htons(value)`, two bytes, to
   * the configuration handle as a write with response.
   */
  function WriteConfigValue(gattReady: bool, c: LeClient.Client, h: Handles, value: uint16, host: Endianness): (r: LeClient.Outcome)
    ensures !gattReady <==> r == LeClient.NotInitialized
    ensures gattReady ==> r == LeClient.Done(c, Some(Call.WriteValue(h.config, BigEndian16(value))))
  {
    HtonsMemoryIsBigEndian(host, value);
    LeClient.WriteValue(gattReady, c, h.config, MemoryBytes16(host, Htons(host, value)), false, false)
  }

  /** `enable_notifications`: writes 0x0001, i.e. the bytes 00 01, to the configuration handle. */
  function EnableNotifications(gattReady: bool, c: LeClient.Client, h: Handles, host: Endianness): (r: LeClient.Outcome)
    ensures !gattReady <==> r == LeClient.NotInitialized
    ensures gattReady ==> r == LeClient.Done(c, Some(Call.WriteValue(h.config, [0x00, 0x01])))
  {
    WriteConfigValue(gattReady, c, h, 0x0001, host)
  }

  /** `disable_notifications`: writes 0x0000, i.e. the bytes 00 00, to the configuration handle. */
  function DisableNotifications(gattReady: bool, c: LeClient.Client, h: Handles, host: Endianness): (r: LeClient.Outcome)
    ensures !gattReady <==> r == LeClient.NotInitialized
    ensures gattReady ==> r == LeClient.Done(c, Some(Call.WriteValue(h.config, [0x00, 0x00])))
  {
    WriteConfigValue(gattReady, c, h, 0x0000, host)
  }

  /** `enter_remote_control_mode`: sends one enter-remote-control packet. */
  function EnterRemoteControl(gattReady: bool, c: LeClient.Client, h: Handles, codes: Codes, host: Endianness): (r: LeClient.Outcome)
    ensures !gattReady <==> r == LeClient.NotInitialized
    ensures gattReady ==> r.client == c && r.issued.Some? && r.issued.value.WriteWithoutResponse?
                          && r.issued.value.handle == h.tx && !r.issued.value.signedWrite
    ensures gattReady ==> Decode(r.issued.value.value, host) == Some(GetBytes(EnterRemoteControlMode(codes, host), host).packet)
  {
    DecodeGetBytes(EnterRemoteControlMode(codes, host), host);
    SendPacket(gattReady, c, h, EnterRemoteControlMode(codes, host), host)
  }

  /** Entering remote control always sends the same ten bytes, whatever the client's state. */
  lemma EnterRemoteControlConstant(c1: LeClient.Client, c2: LeClient.Client, h: Handles, codes: Codes, host: Endianness)
    ensures EnterRemoteControl(true, c1, h, codes, host).issued == EnterRemoteControl(true, c2, h, codes, host).issued
    ensures |EnterRemoteControl(true, c1, h, codes, host).issued.value.value| == 10
  {
    EnterRemoteControlFrame(codes, host);
  }

  /** `exit_remote_control_mode`: sends one exit-remote-control packet (a parameter: `exit_remote_control_mode.hpp:30` declares the constructor, and this model has no definition of it). */
  function ExitRemoteControl(gattReady: bool, c: LeClient.Client, h: Handles, exitPacket: Packet, host: Endianness): (r: LeClient.Outcome)
    ensures !gattReady <==> r == LeClient.NotInitialized
    ensures gattReady ==> r == LeClient.Done(c, Some(WriteWithoutResponse(h.tx, false, GetBytes(exitPacket, host).bytes)))
  {
    SendPacket(gattReady, c, h, exitPacket, host)
  }

  /**
   * `drive(throttle, steering)`: one `Drive` packet, the signed inputs
   * reinterpreted as `uint16_t` by the constructor's parameter types.
   */
  function DriveCmd(gattReady: bool, c: LeClient.Client, h: Handles, codes: Codes, throttle: int16, steering: int16, host: Endianness): (r: LeClient.Outcome)
    ensures !gattReady <==> r == LeClient.NotInitialized
    ensures gattReady ==> r.client == c && r.issued.Some? && r.issued.value.WriteWithoutResponse?
                          && r.issued.value.handle == h.tx && !r.issued.value.signedWrite
  {
    SendPacket(gattReady, c, h, Drive(codes, ToUint16(throttle), ToUint16(steering), host), host)
  }

  /**
   * What the scooter receives from `drive` decodes to a drive command whose
   * fields, read back as signed 16-bit values, are the inputs.
   */
  lemma DriveDelivered(c: LeClient.Client, h: Handles, codes: Codes, throttle: int16, steering: int16, host: Endianness)
    ensures var bytes := DriveCmd(true, c, h, codes, throttle, steering, host).issued.value.value;
            var d := Decode(bytes, host);
            && d.Some?
            && d.value.kind == codes.command && d.value.operation == codes.controlDriveBase && d.value.parameter == codes.setDrive
            && |d.value.payload| == DrivePayloadSize
            && var (t, s) := DecodeDrive(d.value.payload);
               ToInt16(t) == throttle && ToInt16(s) == steering
  {
    var p := Drive(codes, ToUint16(throttle), ToUint16(steering), host);
    DecodeGetBytes(p, host);
    DriveRoundTrip(codes, ToUint16(throttle), ToUint16(steering), host);
    Int16RoundTrip(throttle);
    Int16RoundTrip(steering);
  }

  /** The telemetry getters. */
  datatype Reading = CurrentSpeed | BatteryLevel | Voltage | VehicleTemperature

  /** Every telemetry getter is a stub that reports 0. */
  function Telemetry(reading: Reading): (v: int)
    ensures v == 0
  {
    0
  }
}

=== FILE: packet.dfy ===
/**
 * The MiniPRO frame encoder (`Packet::get_bytes`).
 *
 * A frame is laid out as
 *
 *   0x55 0xAA | length | type | operation | parameter | payload ... | checksum (2 bytes)
 *
 * where `length` counts the payload and the two checksum bytes, and the
 * checksum is the one's complement of the 16-bit wrapping sum of the length,
 * type, operation, parameter and payload bytes.  The header goes through
 * `htons` before its bytes are copied out; the checksum does not, so its two
 * bytes appear in host memory order.  The host's byte order is therefore a
 * parameter of the encoder.
 */
module Packet {
  import opened Common

  /** `header_`, the 16-bit frame marker. */
  const Header: uint16 := 0x55AA

  /** `sizeof(checksum_)`. */
  const ChecksumSize: nat := 2

  /** Bytes before the payload: two header bytes, length, type, operation, parameter. */
  const PrefixSize: nat := 6

  /**
   * A packet object.  `kind` is the source's `type_`; `length` is the
   * `length_` member, which only `GetBytes` writes.
   */
  datatype Packet = Packet(kind: uint8, operation: uint8, parameter: uint8, payload: seq<uint8>, length: uint8)

  /** A packet object as the subclass constructors leave it (`length_` still 0). */
  function NewPacket(kind: uint8, operation: uint8, parameter: uint8, payload: seq<uint8>): (p: Packet)
    ensures p.kind == kind && p.operation == operation && p.parameter == parameter && p.payload == payload
    ensures p.length == 0
  {
    Packet(kind, operation, parameter, payload, 0)
  }

  /** The result of `get_bytes`: the updated object and the returned bytes. */
  datatype Frame = Frame(packet: Packet, bytes: seq<uint8>)

  /** Plain (unbounded) sum of a byte sequence. */
  function Total(bytes: seq<uint8>): nat
  {
    if |bytes| == 0 then 0 else bytes[0] + Total(bytes[1..])
  }

  /** The source's loop `for (val : payload_) sum += val` on a `uint16_t` accumulator. */
  function Sum16(start: uint16, bytes: seq<uint8>): uint16
    decreases |bytes|
  {
    if |bytes| == 0 then start else Sum16(Wrap16(start + bytes[0]), bytes[1..])
  }

  /** Adding byte by byte with wrap-around is the plain sum taken modulo 2^16. */
  lemma {:induction false} Sum16IsTotalMod(start: uint16, bytes: seq<uint8>)
    ensures Sum16(start, bytes) == (start + Total(bytes)) % 0x1_0000
    decreases |bytes|
  {
    if |bytes| > 0 {
      Sum16IsTotalMod(Wrap16(start + bytes[0]), bytes[1..]);
      ReduceFirst16(start + bytes[0], Total(bytes[1..]));
    }
  }

  /** Reducing one addend modulo 2^16 first does not change the sum modulo 2^16. */
  lemma ReduceFirst16(x: nat, t: nat)
    ensures (Wrap16(x) + t) % 0x1_0000 == (x + t) % 0x1_0000
  {
    var q := x / 0x1_0000;
    assert x + t == (Wrap16(x) + t) + q * 0x1_0000;
  }

  /** `length_ = payload_.size() + sizeof(checksum_)`, narrowed to `uint8_t`. */
  function LengthByte(payload: seq<uint8>): (r: uint8)
    ensures |payload| + ChecksumSize < 0x100 ==> r == |payload| + ChecksumSize
    ensures (r - (|payload| + ChecksumSize)) % 0x100 == 0
  {
    Wrap8(|payload| + ChecksumSize)
  }

  /**
   * `sum ^ 0xffff` on a `uint16_t`: flipping all sixteen bits of a 16-bit
   * value is subtracting it from 0xFFFF.
   */
  function Complement16(x: uint16): uint16
  {
    0xFFFF - x
  }

  /** Every byte the checksum covers, in the order the source adds them. */
  function Covered(length: uint8, p: Packet): seq<uint8>
  {
    [length, p.kind, p.operation, p.parameter] + p.payload
  }

  /** The running `uint16_t` sum of `get_bytes` is the total of the covered bytes modulo 2^16. */
  lemma CoveredSum(length: uint8, p: Packet)
    ensures Sum16(length + p.kind + p.operation + p.parameter, p.payload) == Total(Covered(length, p)) % 0x1_0000
  {
    var head := [length, p.kind, p.operation, p.parameter];
    Sum16IsTotalMod(length + p.kind + p.operation + p.parameter, p.payload);
    TotalAppend(head, p.payload);
    assert Total(head[3..]) == p.parameter;
    assert Total(head[2..]) == p.operation + p.parameter by { assert head[2..][1..] == head[3..]; }
    assert Total(head[1..]) == p.kind + p.operation + p.parameter by { assert head[1..][1..] == head[2..]; }
    assert Total(head) == length + p.kind + p.operation + p.parameter;
  }

  /**
   * The checksum `get_bytes` computes for a packet whose length field is
   * `length`: added to the 16-bit sum of the covered bytes it gives 0xFFFF.
   */
  function Checksum(length: uint8, p: Packet): (r: uint16)
    ensures (Total(Covered(length, p)) % 0x1_0000) + r == 0xFFFF
  {
    CoveredSum(length, p);
    Complement16(Sum16(length + p.kind + p.operation + p.parameter, p.payload))
  }

  /** `Packet::get_bytes` on a host with the given byte order. */
  function GetBytes(p: Packet, host: Endianness): (f: Frame)
    ensures f.packet == p.(length := LengthByte(p.payload))
    ensures |f.bytes| == |p.payload| + PrefixSize + ChecksumSize
    ensures f.bytes[..2] == [0x55, 0xAA]
    ensures f.bytes[2] == LengthByte(p.payload)
    ensures f.bytes[3] == p.kind && f.bytes[4] == p.operation && f.bytes[5] == p.parameter
    ensures f.bytes[PrefixSize..PrefixSize + |p.payload|] == p.payload
    ensures FromMemoryBytes16(host, f.bytes[PrefixSize + |p.payload|..]) == Checksum(f.packet.length, p)
  {
    var length := LengthByte(p.payload);
    var checksum := Checksum(length, p);
    HtonsMemoryIsBigEndian(host, Header);
    MemoryBytes16RoundTrip(host, checksum);
    var bytes := MemoryBytes16(host, Htons(host, Header))
                 + [length, p.kind, p.operation, p.parameter]
                 + p.payload
                 + MemoryBytes16(host, checksum);
    assert bytes[PrefixSize + |p.payload|..] == MemoryBytes16(host, checksum);
    Frame(p.(length := length), bytes)
  }

  /**
   * What a receiver checks on the wire: summing the frame's bytes from the
   * length byte to the end of the payload in a `uint16_t`, and adding the
   * checksum read from the last two bytes in host order, gives 0xFFFF.
   */
  lemma ChecksumComplementsSum(p: Packet, host: Endianness)
    ensures var b := GetBytes(p, host).bytes;
            Sum16(0, b[2..|b| - ChecksumSize]) + FromMemoryBytes16(host, b[|b| - ChecksumSize..]) == 0xFFFF
  {
    var f := GetBytes(p, host);
    var b := f.bytes;
    assert b[2..|b| - ChecksumSize] == Covered(f.packet.length, p);
    Sum16IsTotalMod(0, Covered(f.packet.length, p));
  }

  lemma {:induction false} TotalAppend(a: seq<uint8>, b: seq<uint8>)
    ensures Total(a + b) == Total(a) + Total(b)
  {
    if |a| > 0 {
      assert (a + b)[0] == a[0];
      assert (a + b)[1..] == a[1..] + b;
      TotalAppend(a[1..], b);
    } else {
      assert a + b == b;
    }
  }

  /** `get_bytes` only refreshes `length_`: calling it again yields the same frame. */
  lemma GetBytesIdempotent(p: Packet, host: Endianness)
    ensures GetBytes(GetBytes(p, host).packet, host) == GetBytes(p, host)
  {
  }

  /**
   * A receiver for the frames `GetBytes` emits: checks the header, the length
   * byte against the frame size and the checksum, and recovers the fields.
   */
  function Decode(b: seq<uint8>, host: Endianness): (r: Option<Packet>)
    ensures r.Some? ==> |b| == |r.value.payload| + PrefixSize + ChecksumSize
  {
    if |b| < PrefixSize + ChecksumSize || b[0] != 0x55 || b[1] != 0xAA || b[2] != |b| - PrefixSize then None
    else
      var p := Packet(b[3], b[4], b[5], b[PrefixSize..|b| - ChecksumSize], b[2]);
      if FromMemoryBytes16(host, b[|b| - ChecksumSize..]) == Checksum(b[2], p) then Some(p) else None
  }

  /**
   * Round trip: a packet whose payload fits the length byte decodes back from
   * its frame, with the length field `get_bytes` stored.
   */
  lemma DecodeGetBytes(p: Packet, host: Endianness)
    requires |p.payload| + ChecksumSize < 0x100
    ensures Decode(GetBytes(p, host).bytes, host) == Some(GetBytes(p, host).packet)
  {
    var f := GetBytes(p, host);
    var b := f.bytes;
    assert b[PrefixSize..|b| - ChecksumSize] == p.payload;
  }

  /** Conversely, every byte sequence the receiver accepts is exactly the frame of what it decoded. */
  lemma GetBytesDecode(b: seq<uint8>, host: Endianness)
    requires Decode(b, host).Some?
    ensures GetBytes(Decode(b, host).value, host).bytes == b
  {
    var p := Decode(b, host).value;
    var f := GetBytes(p, host);
    var n := |p.payload|;
    assert f.bytes[..2] == b[..2];
    assert f.bytes[2..PrefixSize] == b[2..PrefixSize];
    assert f.bytes[PrefixSize..PrefixSize + n] == b[PrefixSize..PrefixSize + n];
    var c := b[PrefixSize + n..];
    var d := f.bytes[PrefixSize + n..];
    assert FromMemoryBytes16(host, c) == FromMemoryBytes16(host, d);
    MemoryBytesInjective(host, c, d);
    assert f.bytes == f.bytes[..2] + f.bytes[2..PrefixSize] + f.bytes[PrefixSize..PrefixSize + n] + d;
    assert b == b[..2] + b[2..PrefixSize] + b[PrefixSize..PrefixSize + n] + c;
  }

  lemma MemoryBytesInjective(host: Endianness, c: seq<uint8>, d: seq<uint8>)
    requires |c| == 2 && |d| == 2
    requires FromMemoryBytes16(host, c) == FromMemoryBytes16(host, d)
    ensures c == d
  {
  }

  /**
   * The length byte is a `uint8_t`: a 254-byte payload wraps it to 0 and the
   * frame no longer states its own size.
   */
  lemma LengthByteWraps(p: Packet, host: Endianness)
    requires |p.payload| == 254
    ensures GetBytes(p, host).bytes[2] == 0
    ensures Decode(GetBytes(p, host).bytes, host) == None
  {
  }
}

=== FILE: tokenizer.dfy ===
/**
 * `parse_args`, the command-line splitter shared by the command-line tool and
 * `BluetoothLEDevice`.
 *
 * The source calls `strsep(&str, " \t")` repeatedly: each call returns the
 * text up to the next space or tab (possibly empty) and the final call
 * returns NULL.  Every result, the NULL included, is stored in the next free
 * `argv` slot; empty fields are skipped without advancing the slot.  The
 * count `*argc` starts at the caller's value, and the function returns false
 * as soon as the count exceeds `expected_argc`.
 */
module Tokenizer {

  predicate IsSeparator(c: char)
  {
    c == ' ' || c == '\t'
  }

  predicate NoSeparator(s: string)
  {
    forall i :: 0 <= i < |s| ==> !IsSeparator(s[i])
  }

  /** Index of the first space or tab, or |s| when there is none. */
  function FirstSeparator(s: string): (k: nat)
    ensures k <= |s|
    ensures NoSeparator(s[..k])
    ensures k < |s| ==> IsSeparator(s[k])
  {
    if |s| == 0 then 0
    else if IsSeparator(s[0]) then 0
    else
      var k := 1 + FirstSeparator(s[1..]);
      assert s[..k] == [s[0]] + s[1..][..k - 1];
      k
  }

  /** The successive non-NULL results of `strsep(&s, " \t")`. */
  function Fields(s: string): (r: seq<string>)
    ensures |r| >= 1
    ensures forall i :: 0 <= i < |r| ==> NoSeparator(r[i])
    decreases |s|
  {
    var k := FirstSeparator(s);
    if k == |s| then [s] else [s[..k]] + Fields(s[k + 1..])
  }

  /** The separator characters of `s`, in order: the characters `strsep` overwrites with NUL. */
  function Separators(s: string): (r: seq<char>)
    ensures forall i :: 0 <= i < |r| ==> IsSeparator(r[i])
    decreases |s|
  {
    var k := FirstSeparator(s);
    if k == |s| then [] else [s[k]] + Separators(s[k + 1..])
  }

  /** Puts fields back together, with the given separators between them. */
  function Unsplit(fields: seq<string>, seps: seq<char>): string
    requires |fields| == |seps| + 1
  {
    if |seps| == 0 then fields[0] else fields[0] + [seps[0]] + Unsplit(fields[1..], seps[1..])
  }

  /** Splitting loses nothing: there is one more field than separators, and re-joining restores `s`. */
  lemma {:induction false} FieldsRoundTrip(s: string)
    ensures |Fields(s)| == |Separators(s)| + 1
    ensures Unsplit(Fields(s), Separators(s)) == s
    decreases |s|
  {
    var k := FirstSeparator(s);
    if k == |s| {
      assert s[..k] == s;
    } else {
      var rest := s[k + 1..];
      FieldsRoundTrip(rest);
      var f := Fields(s);
      var seps := Separators(s);
      assert f[1..] == Fields(rest);
      assert seps[1..] == Separators(rest);
      assert s == s[..k] + [s[k]] + rest;
    }
  }

  /** The fields that are not empty, in order. */
  function NonEmpty(fields: seq<string>): (r: seq<string>)
    ensures |r| <= |fields|
    ensures forall i :: 0 <= i < |r| ==> r[i] != []
  {
    if |fields| == 0 then []
    else if fields[0] == [] then NonEmpty(fields[1..])
    else [fields[0]] + NonEmpty(fields[1..])
  }

  lemma {:induction false} NonEmptyAppend(a: seq<string>, b: seq<string>)
    ensures NonEmpty(a + b) == NonEmpty(a) + NonEmpty(b)
  {
    if |a| == 0 {
      assert a + b == b;
    } else {
      assert (a + b)[0] == a[0];
      assert (a + b)[1..] == a[1..] + b;
      NonEmptyAppend(a[1..], b);
    }
  }

  /** The arguments `parse_args` stores: the non-empty space/tab-separated words, in order. */
  function Tokens(s: string): (r: seq<string>)
    ensures forall i :: 0 <= i < |r| ==> r[i] != [] && NoSeparator(r[i])
  {
    var f := Fields(s);
    var r := NonEmpty(f);
    NonEmptyIsSubsequence(f);
    r
  }

  lemma {:induction false} NonEmptyIsSubsequence(f: seq<string>)
    ensures forall i :: 0 <= i < |NonEmpty(f)| ==> NonEmpty(f)[i] in f
  {
    if |f| > 0 {
      NonEmptyIsSubsequence(f[1..]);
    }
  }

  /**
   * What `parse_args` leaves behind.  `ok` is its return value, `argc` the
   * final count, `argv` the arguments stored, and `lastSlot` the highest
   * `argv` index it wrote (the NULL terminator when it succeeds).
   */
  datatype ParseResult = ParseResult(ok: bool, argc: int, argv: seq<string>, lastSlot: nat)

  /**
   * Reference description of `parse_args(str, expected, argv, &argc)` with
   * `argc` starting at `argc0`: all tokens are stored when they fit, otherwise
   * the first token that makes the count exceed `expected` is stored and the
   * call fails.
   */
  function ParseArgsResult(s: string, expected: int, argc0: int): (r: ParseResult)
    ensures r.ok <==> |Tokens(s)| == 0 || argc0 + |Tokens(s)| <= expected
    ensures r.ok ==> r.argv == Tokens(s) && r.lastSlot == |Tokens(s)|
    ensures !r.ok ==> r.lastSlot < |Tokens(s)| && r.argv == Tokens(s)[..r.lastSlot + 1]
    ensures !r.ok ==> r.argc > expected && (argc0 <= expected ==> r.argc == expected + 1)
    ensures r.argc == argc0 + |r.argv|
  {
    var t := Tokens(s);
    if |t| == 0 || argc0 + |t| <= expected then ParseResult(true, argc0 + |t|, t, |t|)
    else
      var k := if expected - argc0 > 0 then expected - argc0 else 0;
      ParseResult(false, argc0 + k + 1, t[..k + 1], k)
  }

  /**
   * `parse_args` as the loop the source runs: one step per `strsep` field,
   * counting and storing the non-empty ones.
   */
  method ParseArgs(s: string, expected: int, argc0: int) returns (r: ParseResult)
    ensures r == ParseArgsResult(s, expected, argc0)
  {
    var fields := Fields(s);
    var argv: seq<string> := [];
    var argc := argc0;
    var i := 0;
    while i < |fields|
      invariant 0 <= i <= |fields|
      invariant argv == NonEmpty(fields[..i])
      invariant argc == argc0 + |argv|
      invariant |argv| == 0 || argc <= expected
    {
      NonEmptyStep(fields, i);
      if fields[i] != [] {
        argv := argv + [fields[i]];
        argc := argc + 1;
        if argc > expected {
          NonEmptyPrefix(fields, i + 1);
          return ParseResult(false, argc, argv, |argv| - 1);
        }
      }
      i := i + 1;
    }
    assert fields[..i] == fields;
    return ParseResult(true, argc, argv, |argv|);
  }

  lemma NonEmptyStep(fields: seq<string>, i: nat)
    requires i < |fields|
    ensures NonEmpty(fields[..i + 1]) == NonEmpty(fields[..i]) + (if fields[i] == [] then [] else [fields[i]])
  {
    assert fields[..i + 1] == fields[..i] + [fields[i]];
    NonEmptyAppend(fields[..i], [fields[i]]);
    assert [fields[i]][1..] == [];
  }

  lemma NonEmptyPrefix(fields: seq<string>, i: nat)
    requires i <= |fields|
    ensures |NonEmpty(fields[..i])| <= |NonEmpty(fields)|
    ensures NonEmpty(fields)[..|NonEmpty(fields[..i])|] == NonEmpty(fields[..i])
  {
    assert fields == fields[..i] + fields[i..];
    NonEmptyAppend(fields[..i], fields[i..]);
  }

  /**
   * A caller passing an array of `capacity` slots is safe when no command
   * string makes `parse_args` write past its end.
   */
  ghost predicate CallerSafe(expected: int, argc0: int, capacity: nat)
  {
    forall s: string :: ParseArgsResult(s, expected, argc0).lastSlot < capacity
  }

  /** `n` copies of the word "a", each followed by a space. */
  function Words(n: nat): (s: string)
  {
    if n == 0 then [] else "a " + Words(n - 1)
  }

  lemma {:induction false} WordsTokens(n: nat)
    ensures |Tokens(Words(n))| == n
  {
    if n > 0 {
      var s := Words(n);
      assert FirstSeparator(s) == 1 by {
        assert s[0] == 'a' && s[1] == ' ';
        assert FirstSeparator(s[1..]) == 0;
      }
      assert s[..1] == "a";
      assert s[2..] == Words(n - 1);
      assert Fields(s) == ["a"] + Fields(Words(n - 1));
      WordsTokens(n - 1);
    }
  }

  /**
   * `parse_args` needs `expected - argc0 + 1` slots: that many always suffice,
   * and for every smaller array some command string overruns it.
   */
  lemma CallerSafeIff(expected: int, argc0: int, capacity: nat)
    requires 0 <= argc0 <= expected
    ensures CallerSafe(expected, argc0, capacity) <==> expected - argc0 < capacity
  {
    if expected - argc0 >= capacity {
      var w := Words(expected - argc0);
      WordsTokens(expected - argc0);
      assert ParseArgsResult(w, expected, argc0).lastSlot == expected - argc0;
    }
  }
}
